=== FILE: README.md ===
# osm2pdf page-layout core in Dafny

osm2pdf turns a map area (a north/west/south/east bounding box) or a GPS
track into a printable atlas of pages, each page a fixed block of slippy-map
tiles. This project models the integer tile and page arithmetic behind that,
and the small decision and string functions around it, as pure Dafny
functions and short methods, and proves what they promise:

- **Projection** (`osm.dfy`, module `Osm`): `lon2tileExact`/`tile2lon` over
  exact reals, `lon2tile`/`lat2tile` as floors, `getTileSize`. The latitude
  projection is transcendental; it is a function-valued parameter
  (`LatProjection`) about which nothing is assumed.
- **Map mode** (`map.dfy`, `MapMode`): `boundaries2pages`, the row-major grid
  of `ceil(width / pageSizeX) x ceil(height / pageSizeY)` pages starting at the
  north-west tile, with coverage, uniqueness and overshoot proofs.
- **Route mode** (`route.dfy`, `RouteMode`): `route2tiles` and `tiles2pages`.
  Both are one generic first-seen deduplication by key (`dedup.dfy`, `Dedup`)
  applied to a mapped sequence, proved equal to an independent "keep the first
  occurrences" reference definition.
- **Path mode** (`path.dfy`, `PathMode`): `getTileRoute` and `collectPages`,
  whose page dictionary is proved to hold one entry per distinct bucket, with
  positions `0..n-1` in first-encounter order, never overwritten.
- **Padding** (`utils.dfy`, `Utils`): `pad`, proved to give the last
  `decimals` digits, and, below `10^decimals`, to sort as strings exactly as
  the numbers sort (the page file names fix the page order).
- **Downloading** (`download.dfy`, `Download`): the tile grid a page requests,
  the progress bar, the shared rate limit (minimum over all pages) and the
  skip-existing-file loop. Which files exist before the loop is a parameter;
  the files the loop saves itself are tracked.
- **Command line** (`args.dfy`, `config.dfy`, `run.dfy`): `getConfig`,
  `getTileServer` and the dispatch of the entry closure of `run.ts`, over an
  already parsed argument map (`map<string, ArgValue>`), each outcome
  characterised in both directions.

Tile and page arithmetic is over unbounded integers and exact reals. `Math.ceil(a / b)` is the ceiling of
the exact real quotient. The page arithmetic itself is defined step by step
(`Times`: `n` steps of `s`; `PagesNeeded`: pages added until the extent is
reached; `FloorMultiple`: pages stepped from 0 to the value; `ScaleUp` and
`ScaleDown`: `zoom` doublings or halvings), and lemmas prove each equal to the
source's formula (`n * s`, `Math.ceil(n / s)`, `Math.floor(v / s) * s`,
`* Math.pow(2, zoom)`, `/ Math.pow(2, zoom)`), negative operands included. The floored projections use `Math.floor`, which
rounds towards minus infinity.

Map mode anchors its grid at `lon2tile(west)` and `lat2tile(north)` and runs
east and south. For a box given west to east (and north above south) every
tile of the box lies on exactly one page (`MapMode.BoxCovered`); the last page
row and column may reach past the box (`MapMode.GridOvershoot`). When the
box's east edge lies in a tile column west of `lon2tile(west)`, that east-edge
column lies on no page (`MapMode.EastEdgeWestOfAnchorUncovered`).

Downloading skips a page whose file exists. A page saved earlier in the same
run counts as existing, so of several pages sharing a file name at most the
first is fetched, and none if the file existed before the loop.

## Model

| member | source | states |
|---|---|---|
| `Osm.Lon2TileExact` | src/osm.ts:5-7 | longitude -180 maps to tile column 0 and +180 to column 2^zoom |
| `Osm.Lon2TileExactFormula` | src/osm.ts:5-7 | the doubling definition equals `((lon + 180) / 360) * 2^zoom` |
| `Osm.Tile2LonFormula` | src/osm.ts:24-26 | `Tile2Lon`, the halving definition, equals `(x / 2^zoom) * 360 - 180` |
| `Osm.Lon2TileExactIncreasing` | src/osm.ts:5-7 | the longitude projection is strictly increasing |
| `Osm.LonRoundTrip` | src/osm.ts:24-26 | `tile2lon(lon2tileExact(lon, z), z) == lon` over exact reals |
| `Osm.TileRoundTrip` | src/osm.ts:24-26 | `lon2tileExact(tile2lon(x, z), z) == x` over exact reals |
| `Osm.Lon2Tile` | src/osm.ts:16-18 | the tile column `t` satisfies `t <= exact < t + 1` |
| `Osm.Lat2Tile` | src/osm.ts:20-22 | the tile row `t` satisfies `t <= exact < t + 1` for the latitude projection |
| `Osm.Lon2TileMonotone` | src/osm.ts:16-18 | floored tile columns never decrease with the longitude |
| `Osm.GetTileSize` | src/osm.ts:36-56 | width and height are at least 1, are the number of integer tile columns (rows) between the two edge tiles inclusive, and a degenerate box is exactly 1x1 |
| `Osm.SpanSize` | src/osm.ts:53-54 | there are `abs(a - b) + 1` integers between edge tiles `a` and `b` |
| `Osm.GetTileSizeSymmetric` | src/osm.ts:53-54 | swapping west/east or north/south leaves the size unchanged |
| `Arith.TimesIsProduct` | src/map.ts:73-74 | `n` steps of `s` from 0 end at `n * s`, the page offset `px * pageSizeX` |
| `Arith.TimesGap` | src/map.ts:73-74 | for a positive page size, page `b` starts at or after the end of every earlier page `a` |
| `Arith.FindBand` | src/map.ts:73-74 | every offset below `n` pages of size `s` lies in exactly the band of some page `q < n` |
| `Arith.CeilQuotBounds` | src/map.ts:63-64 | for a positive page size, `ceil(a / b)` pages of size `b` reach `a` and one fewer does not |
| `Arith.PagesNeededBounds` | src/map.ts:63-64 | the page-by-page count reaches the extent and one page fewer does not |
| `Arith.PagesNeededIsCeil` | src/map.ts:63-64 | the page-by-page count is `Math.ceil(n / s)`, or 0 where that is not positive |
| `Arith.ScaleUpIsProduct` | src/osm.ts:6 | doubling `zoom` times is multiplying by `Math.pow(2, zoom)` |
| `Arith.ScaleDownIsQuotient` | src/osm.ts:25 | halving `zoom` times is dividing by `Math.pow(2, zoom)` |
| `Arith.ScaleDownUp` | src/osm.ts:5-7 | halving `zoom` times undoes doubling `zoom` times |
| `Arith.ScaleUpDown` | src/osm.ts:24-26 | doubling `zoom` times undoes halving `zoom` times |
| `Arith.ScaleUpIncreasing` | src/osm.ts:5-7 | multiplying by `2^zoom` keeps strict order |
| `Arith.FloorMultipleIsFormula` | src/route.ts:73-74 | the page-by-page floor multiple is `Math.floor(v / s) * s` for a positive size |
| `Arith.BucketFormula` | src/route.ts:73-74 | the bucket is `Math.floor(v / s) * s` for every nonzero size, negative ones included |
| `Arith.BucketBounds` | src/route.ts:73-74 | for a positive size, `v` lies in `[origin, origin + s)` of its bucket |
| `Arith.BucketAligned` | src/route.ts:73-74 | a bucket origin is a multiple of the size |
| `Arith.BucketIntAgrees` | src/route.ts:73-74 | on integer tile indices the integer bucket equals the real one |
| `MapMode.Boundaries2Pages` | src/map.ts:41-83 | the pages are those of the grid laid out from the north-west tile, `rows * cols` of them, each with the requested size and zoom, the first at the north-west tile; none for a negative page size |
| `MapMode.EnumerateGrid` | src/map.ts:70-80 | the nested loops push exactly the grid's pages, row by row |
| `MapMode.RowsIndex` | src/map.ts:70-80 | page row `r`, column `c` is pushed at position `r * cols + c` with origin `(x0 + c * sx, y0 + r * sy)` |
| `MapMode.LayoutCounts` | src/map.ts:63-64 | the loop counts are `Math.ceil(width / pageSizeX)` and `Math.ceil(height / pageSizeY)`, or zero where those are not positive |
| `MapMode.PageCount` | src/map.ts:63-80 | for positive sizes there are `ceil(width / sx) * ceil(height / sy)` pages |
| `MapMode.GridOvershoot` | src/map.ts:63-64 | `width <= pagesX * sx < width + sx`, and likewise for rows |
| `MapMode.RowsDisjoint` | src/map.ts:70-79 | for positive sizes no tile lies on two different pages of the pushed rows |
| `MapMode.GridOriginsDistinct` | src/map.ts:70-79 | no two emitted pages share an origin |
| `MapMode.GridCoverage` | src/map.ts:70-79 | every tile of the grid footprint lies on exactly one page |
| `MapMode.RegionCovered` | src/map.ts:58-80 | for positive page sizes every tile `(x0 + i, y0 + j)` of the `width x height` block anchored at the north-west tile lies on exactly one page |
| `MapMode.FootprintIsBoxSpan` | src/map.ts:58-61 | for a box given west to east and north above south, that anchored block is exactly the set of tiles between the box's edge tiles |
| `MapMode.BoxCovered` | src/map.ts:58-80 | for such a box and positive page sizes, every tile between the box's edge tiles lies on exactly one page |
| `MapMode.RowsEastOfAnchor` | src/map.ts:70-74 | with a non-negative page width no page starts west of the anchor column `lon2tile(west)` |
| `MapMode.EastEdgeWestOfAnchorUncovered` | src/map.ts:58-80 | when the box's east edge lies in a tile column west of `lon2tile(west)` and the page width is non-negative, no page contains that east-edge column |
| `MapMode.SwappedBoxMissesEastEdge` | src/map.ts:58-80 | a box given east to west (west 90, east -90, zoom 1) leaves its east-edge tile column 0 on no page |
| `Dedup.Dedup` | src/route.ts:62-63 | the find-then-push pass keeps no two elements with one key, keeps every key, and only input elements |
| `Dedup.DedupIsFirsts` | src/route.ts:55-64 | the pass keeps exactly the first occurrences of each key, in input order |
| `Dedup.DedupKeepsFirst` | src/route.ts:81-84 | each kept element is the one at the first occurrence of its key |
| `Dedup.DedupCovers` | src/route.ts:62-63 | every input key is the key of some kept element |
| `Dedup.SingleKey` | src/route.ts:81-84 | when all elements share one key exactly one survives |
| `Dedup.DistinctKeysCard` | src/route.ts:62-63 | a list with distinct keys has as many keys as elements |
| `RouteMode.Route2Tiles` | src/route.ts:52-67 | no two output tiles share `(x, y)`; every point's floored tile occurs; every output tile is some point's tile; at most as many tiles as points |
| `RouteMode.Route2TilesOrder` | src/route.ts:55-66 | tiles come out in the order the track first reaches them |
| `RouteMode.Tiles2Pages` | src/route.ts:69-88 | page origins are distinct; every page is some tile's page; every tile's page origin occurs; at most as many pages as tiles |
| `RouteMode.PageOfContains` | src/route.ts:72-78 | for positive sizes a tile lies on the page `PageOf` computes for it |
| `RouteMode.Tiles2PagesCover` | src/route.ts:69-88 | for positive sizes every input tile lies inside some page |
| `RouteMode.Tiles2PagesAligned` | src/route.ts:72-78 | every page has the requested size and an origin that is a multiple of it |
| `RouteMode.Tiles2PagesFirstSeen` | src/route.ts:71-85 | pages come out in first-bucket-seen order, each the page of the first tile of its bucket (so its zoom) |
| `RouteMode.OneBucketOnePage` | src/route.ts:69-88 | tiles that all fall in one bucket produce exactly one page |
| `RouteMode.OneBucketRouteOnePage` | src/route.ts:52-88 | a nonempty track whose points all land in one bucket yields exactly one page |
| `PathMode.GetTileRouteInverts` | src/path.ts:135-141 | `GetTileRoute`'s exact tile columns un-project to each point's own longitude |
| `PathMode.GetTileRouteFloors` | src/path.ts:135-141 | flooring each exact tile of `GetTileRoute` gives the tile route mode assigns to the same point |
| `PathMode.CollectPages` | src/path.ts:111-133 | one entry per distinct bucket, keyed by its origin, with the page size, the whole route as its only path, and distinct positions below the entry count |
| `PathMode.CollectMatchesDedup` | src/path.ts:114-130 | after each iteration the dictionary holds exactly the first-seen buckets so far, entry `k` at position `k` |
| `PathMode.CollectPagesOrder` | src/path.ts:111-133 | the `k`-th distinct bucket along the route gets position `k` and the zoom of the tile that first reached it |
| `PathMode.CollectPagesCount` | src/path.ts:111-133 | there are as many pages as distinct buckets along the route |
| `PathMode.CollectNeverOverwrites` | src/path.ts:119-129 | an entry, once created, is unchanged by every later tile |
| `PathMode.TilesInsideTheirPage` | src/path.ts:115-116 | every route point lies inside the page of its bucket |
| `Utils.SliceFromEnd` | src/utils.ts:2 | `slice(-k)` is a suffix of the string, of length `min(k, length)`, and the whole string for `k = 0` |
| `Utils.Pad` | src/utils.ts:1-3 | the result has exactly `decimals` characters for `decimals >= 1`, is `num` unpadded for `decimals = 0`; the width defaults to 5 |
| `Utils.PadIsFixedWidth` | src/utils.ts:2 | `pad` is the last `decimals` base-10 digits of `num`, zeros included |
| `Utils.PadSmall` | src/utils.ts:2 | below `10^decimals` the result is `num`'s digits left-filled with '0' |
| `Utils.PadTruncates` | src/utils.ts:2 | a number with more digits is silently cut to its last `decimals` digits |
| `Utils.PadOrderMatchesNumbers` | src/utils.ts:2 | below `10^decimals`, padded names compare as strings exactly as the numbers compare, and are injective |
| `Download.GetPageTiles` | src/download.ts:53-66 | `sx` lists of `sy` tiles, entry `[i][j]` is tile `(x + i, y + j)` at the page zoom; the requests are exactly the page rectangle, each once |
| `Download.ProgressBar` | src/download.ts:52 | the bar is `[`, `progress` dots, spaces up to `sx * sy`, `]` |
| `Download.ProgressStep` | src/download.ts:59 | one more finished tile turns exactly the next space into a dot |
| `Download.RateLimit` | src/download.ts:14-16 | the shared limit is at most every page's limit and equal to one of them; none (Infinity) for no pages |
| `Download.PagesToFetch` | src/download.ts:18-25 | a page is fetched exactly when its file did not exist before the loop and no earlier page has the same file name; fetched in index order |
| `Args.OrElseVersusOrDefault` | src/config.ts:60-62 | `OrElse` (`??`, here) and `OrDefault` (`\|\|`, src/run.ts:26, 35-36) agree except on a present falsy value such as `0`, which `??` keeps and `\|\|` replaces by the default |
| `Config.ListedNumbersAreWhole` | src/config.ts:118-119 | the listed numbers `1..servers.length` are exactly the whole numbers `ListedServer` (the model of `servers[n - 1]`) accepts |
| `Config.GetTileServerChoice` | src/config.ts:117-126 | `GetTileServer`'s server is `undefined` exactly for a number naming no listed server; a listed number gives a listed server; the result is a listed server exactly when the argument is a number, otherwise a parsed one |
| `Config.GetConfig` | src/config.ts:45-115 | help wins, then `--list-tile-servers`; route beats map; each outcome in both directions; defaults 12/4/5, draw and distance true, distance step 10; default output names |
| `Config.StripExtension` | src/config.ts:80-83 | the stem is everything before the last '.', and empty without a '.' |
| `Config.JoinSplit` | src/config.ts:80-83 | joining the parts of a split gives the string back |
| `Config.StripExtensionIsSplitJoin` | src/config.ts:80-83 | the stem equals `split('.').slice(0, -1).join('.')` |
| `Run.Zoom` | src/run.ts:26 | an absent or falsy zoom becomes 12 |
| `Run.Dispatch` | src/run.ts:18-65 | help first, even at zoom 17; zoom 17 and above refused before any mode; path, then route, then map; missing input or boundaries show help; sizes default to 4 and 5; default outputs 'path', 'route' and the map pattern |
| `Run.ZeroZoomBecomesDefault` | src/run.ts:26 | a zoom of 0 becomes 12 |
| `Run.LongBoundariesAloneShowHelp` | src/run.ts:52-57 | without all four truthy short flags `-n -s -w -e` (a 0 boundary, or only `--north` etc.) map mode shows help |

## Left out

- `lat2tileExact` and `tile2lat` (src/osm.ts:9-14, 28-31): logarithms and trigonometry on doubles; the latitude projection is a parameter and no latitude round trip is claimed.
- Floating point: all projections and bucketing are over exact reals; rounding of doubles and NaN/Infinity propagation are not modelled.
- `drawPaths` (src/path.ts:57-109) and src/vector.ts: float geometry and ImageMagick drawing.
- Track parsing (`parseRoute`, src/parse-route.ts): file reading and XML parsing; the model starts from a list of coordinates.
- PDF writing (src/pdf.ts), HTTP and rate limiting (src/http.ts), tile fetching (`getTile`), tile merging and saving (src/download.ts:69-77), console output (src/log.ts, src/help.ts), `listTileServers` (a TODO stub).
- The async functions `map()`, `route()`, `path()` and `downloadPages`' directory creation: temporary directories and the sequencing of effects. Their cross-module calls do not match the exported signatures, so only the functions themselves are modelled.
- The argument parser: its output is taken as a `map<string, ArgValue>`; `parseUrl` appears only as `Parsed(server)`: src/config.ts:3 imports it from src/tile-servers.ts, which exports only `servers` and the default `listTileServers`, so none of the sources defines it.
- Number-to-string formatting in output names: default names are kept as structured values (`RouteDefault`, `MapDefault`, `MapOutput`).
- `Download.GetPageTiles`: tiles are fetched concurrently and the progress counter advances in completion order; the model gives the grid and the bar for each count, not the order of log lines. The info text passed to `getPage` is log output and is left out. `getPage` rejects with a RangeError when `sx * sy < 0`, because its first log line repeats a space `sx * sy - progress` times (src/download.ts:52); the model covers only `sx * sy >= 0`, and `ProgressBar` requires `0 <= progress <= total`.
- Page sizes: the model takes whole numbers; `run.ts` passes any `Number(argv.sx \|\| 4)`, and a fractional size such as `2.5` is not modelled (`getPage` would loop over three columns).
- Repeated flags: the argument parser turns a repeated flag into an array, whose `Number(...)` is NaN; `ArgValue` has no array case.
- Infinite numbers: `Run.JsNumber` has no `Infinity`; `Number("Infinity")` is refused by the zoom check of src/run.ts:28, and other infinite values are not modelled.
- `MapMode.BoxCovered`: stated for a box given west to east whose north edge lies in a tile row at or above its south edge; the latitude projection is a parameter, so the row order is a premise.
- `Download.PagesToFetch`: models only runs where every fetch and save succeeds. A rejected tile request makes `getPage` throw (src/download.ts:22, 64-66) and ends the loop, so no later page is fetched; a failed image write still resolves `savePage` (src/download.ts:76), so a later page with the same file name finds no file and is fetched again.
- `Download.PageJob`: `downloadPages` reads `page.tileServer` and `page.filename`, which the `Page` type lacks; the model gives each page its server's rate limit and file name explicitly.
- `MapMode.Boundaries2Pages`: requires `pageSizeY != 0`, and `pageSizeX != 0` unless `pageSizeY < 0`, because otherwise the source's loop bound is Infinity and it never terminates.
- `RouteMode.Tiles2Pages`: page sizes have type `Size` (nonzero); a zero size gives NaN origins in the source. In the command line flow `run.ts` replaces a zero size by the default.
- `RouteMode.Tiles2PagesCover`: stated for positive page sizes only; with a negative size a page's origin lies at or beyond its tiles and `Contains` does not describe it.
- `PathMode.CollectPages`: page sizes have type `Size` (nonzero), for the same reason; the dictionary key is the pair `(pageX, pageY)` instead of the string `` `${pageX}-${pageY}` ``, which is injective on integers.
- `Utils.Pad`: a negative `decimals` throws a RangeError from `'0'.repeat(decimals)` (src/utils.ts:2); `decimals` is a nat. Integer `num` only; JavaScript's exponent notation for magnitudes of `1e21` and above, and fractional numbers, are not modelled.
- `Osm.Lon2TileExact`: zoom is a natural number; `Math.pow(2, zoom)` for fractional or negative zoom is not modelled.
- `Run.Dispatch`: how `Number` converts a non-numeric string is a parameter (`parse`).

=== FILE: args.dfy ===
/** Command-line values as the argument parser hands them over, and the
    JavaScript truthiness and `??` tests the decision code applies to them. */
module Args {
  import opened Types

  /** One parsed value: numeric-looking values arrive as numbers, bare flags
      as booleans, everything else as strings. */
  datatype ArgValue = Num(n: real) | Str(s: string) | Flag(b: bool)

  /** The parsed argument object; an absent key reads as `undefined`. */
  type Argv = map<string, ArgValue>

  /** JavaScript truthiness of a present value. */
  predicate Truthy(v: ArgValue) {
    match v
    case Num(n) => n != 0.0
    case Str(s) => |s| > 0
    case Flag(b) => b
  }

  /** `argv[key]` is truthy (absent is `undefined`, which is falsy). */
  predicate IsSet(argv: Argv, key: string) {
    key in argv && Truthy(argv[key])
  }

  /** `argv[key]`, with `None` for `undefined`. */
  function Get(argv: Argv, key: string): Option<ArgValue> {
    if key in argv then Some(argv[key]) else None
  }

  /** `argv[key] ?? default`: the default replaces only an absent value. */
  function OrElse(argv: Argv, key: string, default: ArgValue): (v: ArgValue)
    ensures key in argv ==> v == argv[key]
    ensures key !in argv ==> v == default
  {
    if key in argv then argv[key] else default
  }

  /** `argv[key] || default`: the default replaces every falsy value. */
  function OrDefault(argv: Argv, key: string, default: ArgValue): (v: ArgValue)
    ensures IsSet(argv, key) ==> v == argv[key]
    ensures !IsSet(argv, key) ==> v == default
  {
    if IsSet(argv, key) then argv[key] else default
  }

  /** `??` and `||` differ exactly on a present but falsy value: `??` keeps
      it (so an explicit `0` survives) and `||` replaces it by the default. */
  lemma OrElseVersusOrDefault(argv: Argv, key: string, default: ArgValue)
    ensures !(key in argv && !Truthy(argv[key])) ==>
      OrElse(argv, key, default) == OrDefault(argv, key, default)
    ensures key in argv && !Truthy(argv[key]) ==>
      OrElse(argv, key, default) == argv[key] && OrDefault(argv, key, default) == default
    ensures key in argv && argv[key] == Num(0.0) ==>
      OrElse(argv, key, default) == Num(0.0) && OrDefault(argv, key, default) == default
  {
  }

  /** `argv.h || argv.help`. */
  predicate WantsHelp(argv: Argv) {
    IsSet(argv, "h") || IsSet(argv, "help")
  }
}

=== FILE: arith.dfy ===
/** Integer helpers for the JavaScript arithmetic the tile code uses:
    `Math.pow(2, zoom)`, `Math.ceil(a / b)` and `Math.floor(x / s) * s`. */
module Arith {

  /** `Math.pow(2, zoom)` for a whole, non-negative zoom. */
  function Pow2(zoom: nat): (p: nat)
    ensures p >= 1
  {
    if zoom == 0 then 1 else 2 * Pow2(zoom - 1)
  }

  function Abs(n: int): nat {
    if n < 0 then -n else n
  }

  function Min(a: int, b: int): int {
    if a <= b then a else b
  }

  function Max(a: int, b: int): int {
    if a <= b then b else a
  }

  /** `n * s` as `n` steps of `s`: where the `n`-th page of size `s` starts. */
  function Times(n: nat, s: int): int {
    if n == 0 then 0 else Times(n - 1, s) + s
  }

  lemma {:induction false} TimesIsProduct(n: nat, s: int)
    ensures Times(n, s) == n * s
  {
    if n > 0 {
      TimesIsProduct(n - 1, s);
    }
  }

  lemma {:induction false} TimesZero(n: nat)
    ensures Times(n, 0) == 0
  {
    if n > 0 {
      TimesZero(n - 1);
    }
  }

  lemma {:induction false} TimesNonNegative(n: nat, s: int)
    requires s >= 0
    ensures Times(n, s) >= 0
  {
    if n > 0 {
      TimesNonNegative(n - 1, s);
    }
  }

  /** For a positive step the `b`-th band starts at or after the end of the `a`-th. */
  lemma {:induction false} TimesGap(a: nat, b: nat, s: int)
    requires s > 0 && a < b
    ensures Times(a, s) + s <= Times(b, s)
  {
    if a + 1 < b {
      TimesGap(a, b - 1, s);
    }
  }

  /** The band `[Times(q, s), Times(q, s) + s)` that holds `i`. */
  lemma {:induction false} FindBand(i: int, s: int, n: nat) returns (q: nat)
    requires s > 0 && 0 <= i < Times(n, s)
    ensures q < n && Times(q, s) <= i < Times(q, s) + s
  {
    if i < Times(n - 1, s) {
      q := FindBand(i, s, n - 1);
    } else {
      q := n - 1;
    }
  }

  /** How many pages of positive size `s` it takes to span `n` tiles. */
  function PagesNeeded(n: int, s: int): nat
    requires s > 0
    decreases n
  {
    if n <= 0 then 0 else 1 + PagesNeeded(n - s, s)
  }

  /** The pages reach `n` and one page fewer would not. */
  lemma {:induction false} PagesNeededBounds(n: int, s: int)
    requires s > 0
    ensures Times(PagesNeeded(n, s), s) >= n
    ensures n > 0 ==> PagesNeeded(n, s) >= 1 && Times(PagesNeeded(n, s) - 1, s) < n
    decreases n
  {
    if n > 0 {
      PagesNeededBounds(n - s, s);
    }
  }

  /** The page count is the loop bound `Math.ceil(n / s)`, or none when that is not positive. */
  lemma {:induction false} PagesNeededIsCeil(n: int, s: int)
    requires s > 0
    ensures PagesNeeded(n, s) == Max(0, CeilQuot(n, s))
    decreases n
  {
    if n > 0 {
      PagesNeededIsCeil(n - s, s);
      CeilQuotShift(n, s);
      CeilQuotSign(n, s);
    } else {
      assert n as real / s as real <= 0.0;
    }
  }

  /** Taking one page off the dividend takes one off the ceiling quotient. */
  lemma CeilQuotShift(n: int, s: int)
    requires s > 0
    ensures CeilQuot(n - s, s) == CeilQuot(n, s) - 1
  {
    var d := s as real;
    var q, q' := n as real / d, (n - s) as real / d;
    assert q * d == n as real && q' * d == (n - s) as real;
    var e := q' - (q - 1.0);
    assert e * d == 0.0;
    assert e == (e * d) / d;
    assert q' == q - 1.0;
    assert (-q').Floor == (-q).Floor + 1;
  }

  /** `Math.ceil(a / b)`: the ceiling of the exact quotient (any nonzero divisor). */
  function CeilQuot(a: int, b: int): int
    requires b != 0
  {
    -((-(a as real / b as real)).Floor)
  }

  /** For a positive divisor the ceiling is the least multiple count reaching `a`. */
  lemma CeilQuotBounds(a: int, b: int)
    requires b > 0
    ensures CeilQuot(a, b) * b >= a
    ensures (CeilQuot(a, b) - 1) * b < a
  {
    var q := a as real / b as real;
    var c := CeilQuot(a, b);
    assert (c - 1) as real < q <= c as real;
    MulRealLe(q, c as real, b as real);
    MulRealLt((c - 1) as real, q, b as real);
    assert q * b as real == a as real;
  }

  /** For a positive dividend the ceiling quotient has the divisor's sign. */
  lemma CeilQuotSign(a: int, b: int)
    requires a >= 1 && b != 0
    ensures b > 0 ==> CeilQuot(a, b) >= 1
    ensures b < 0 ==> CeilQuot(a, b) <= 0
  {
    var q := a as real / b as real;
    if b > 0 {
      assert q > 0.0;
    } else {
      assert q < 0.0;
    }
  }

  /** `u * Math.pow(2, zoom)`, as `zoom` doublings of `u`. */
  function ScaleUp(u: real, zoom: nat): real {
    if zoom == 0 then u else 2.0 * ScaleUp(u, zoom - 1)
  }

  /** `x / Math.pow(2, zoom)`, as `zoom` halvings of `x`. */
  function ScaleDown(x: real, zoom: nat): real
    decreases zoom
  {
    if zoom == 0 then x else ScaleDown(x / 2.0, zoom - 1)
  }

  /** Doubling `zoom` times multiplies by `Math.pow(2, zoom)`. */
  lemma {:induction false} ScaleUpIsProduct(u: real, zoom: nat)
    ensures ScaleUp(u, zoom) == u * Pow2(zoom) as real
  {
    if zoom > 0 {
      ScaleUpIsProduct(u, zoom - 1);
      assert u * Pow2(zoom) as real == 2.0 * (u * Pow2(zoom - 1) as real);
    }
  }

  /** Halving `zoom` times divides by `Math.pow(2, zoom)`. */
  lemma {:induction false} ScaleDownIsQuotient(x: real, zoom: nat)
    ensures ScaleDown(x, zoom) == x / Pow2(zoom) as real
    decreases zoom
  {
    if zoom > 0 {
      ScaleDownIsQuotient(x / 2.0, zoom - 1);
      HalveThenDivide(x, Pow2(zoom - 1) as real);
    }
  }

  lemma HalveThenDivide(x: real, p: real)
    requires p >= 1.0
    ensures (x / 2.0) / p == x / (2.0 * p)
  {
    var q := x / (2.0 * p);
    assert q * (2.0 * p) == x;
    assert (q * p) * 2.0 == x;
    assert x / 2.0 == q * p;
  }

  /** Doubling keeps 0 at 0 and takes 1 to `Math.pow(2, zoom)`. */
  lemma {:induction false} ScaleUpEnds(zoom: nat)
    ensures ScaleUp(0.0, zoom) == 0.0
    ensures ScaleUp(1.0, zoom) == Pow2(zoom) as real
  {
    if zoom > 0 {
      ScaleUpEnds(zoom - 1);
    }
  }

  /** Halving undoes doubling. */
  lemma {:induction false} ScaleDownUp(u: real, zoom: nat)
    ensures ScaleDown(ScaleUp(u, zoom), zoom) == u
  {
    if zoom > 0 {
      ScaleDownUp(u, zoom - 1);
      assert ScaleUp(u, zoom) / 2.0 == ScaleUp(u, zoom - 1);
    }
  }

  /** Doubling undoes halving. */
  lemma {:induction false} ScaleUpDown(x: real, zoom: nat)
    ensures ScaleUp(ScaleDown(x, zoom), zoom) == x
    decreases zoom
  {
    if zoom > 0 {
      ScaleUpDown(x / 2.0, zoom - 1);
    }
  }

  /** Doubling preserves strict order. */
  lemma {:induction false} ScaleUpIncreasing(a: real, b: real, zoom: nat)
    requires a < b
    ensures ScaleUp(a, zoom) < ScaleUp(b, zoom)
  {
    if zoom > 0 {
      ScaleUpIncreasing(a, b, zoom - 1);
    }
  }

  lemma MulRealLe(x: real, y: real, k: real)
    requires x <= y && k > 0.0
    ensures x * k <= y * k
  {
  }

  lemma MulRealLt(x: real, y: real, k: real)
    requires x < y && k > 0.0
    ensures x * k < y * k
  {
  }

  /** `Math.floor(v / s) * s` for a positive `s`: the multiple of `s` at or
      below `v`, reached from 0 one page at a time. */
  function FloorMultiple(v: real, s: int): int
    requires s > 0
    decreases if v < 0.0 then 1 else 0, if v < 0.0 then (-v).Floor else v.Floor
  {
    if v < 0.0 then FloorMultiple(v + s as real, s) - s
    else if v < s as real then 0
    else FloorMultiple(v - s as real, s) + s
  }

  /** `Math.floor(v / s) * s` for any nonzero `s`: a negative size mirrors
      both operands, since `v / s == (-v) / (-s)`. */
  function Bucket(v: real, s: int): int
    requires s != 0
  {
    if s > 0 then FloorMultiple(v, s) else -FloorMultiple(-v, -s)
  }

  lemma {:induction false} FloorMultipleIsFormula(v: real, s: int)
    requires s > 0
    ensures FloorMultiple(v, s) == (v / s as real).Floor * s
    decreases if v < 0.0 then 1 else 0, if v < 0.0 then (-v).Floor else v.Floor
  {
    if v < 0.0 {
      FloorMultipleIsFormula(v + s as real, s);
      FloorStep(v, s);
    } else if v < s as real {
      FloorWithin(v, s);
    } else {
      FloorMultipleIsFormula(v - s as real, s);
      FloorStep(v - s as real, s);
    }
  }

  lemma FloorWithin(v: real, s: int)
    requires s > 0 && 0.0 <= v < s as real
    ensures (v / s as real).Floor == 0
  {
    assert 0.0 <= v / s as real < 1.0;
  }

  /** One page further along, the floor multiple is one page larger. */
  lemma FloorStep(v: real, s: int)
    requires s > 0
    ensures ((v + s as real) / s as real).Floor * s == (v / s as real).Floor * s + s
  {
    var d := s as real;
    QuotientShift(v, d);
    var f := (v / d).Floor;
    assert ((v + d) / d).Floor == f + 1;
    assert (f + 1) * s == f * s + s;
  }

  /** Adding one divisor to the dividend adds one to the quotient. */
  lemma QuotientShift(v: real, d: real)
    requires d > 0.0
    ensures (v + d) / d == v / d + 1.0
  {
    var q, q' := v / d, (v + d) / d;
    assert q * d == v && q' * d == v + d;
    var e := q' - (q + 1.0);
    assert e * d == 0.0;
    assert e == (e * d) / d;
  }

  /** `Bucket` is the source's `Math.floor(v / s) * s`. */
  lemma BucketFormula(v: real, s: int)
    requires s != 0
    ensures Bucket(v, s) == (v / s as real).Floor * s
  {
    if s > 0 {
      FloorMultipleIsFormula(v, s);
    } else {
      FloorMultipleIsFormula(-v, -s);
      assert (-v) / (-s) as real == v / s as real;
    }
  }

  /** The value lies in the half-open page `[m, m + s)` its multiple starts. */
  lemma {:induction false} FloorMultipleBounds(v: real, s: int)
    requires s > 0
    ensures FloorMultiple(v, s) as real <= v < (FloorMultiple(v, s) + s) as real
    decreases if v < 0.0 then 1 else 0, if v < 0.0 then (-v).Floor else v.Floor
  {
    if v < 0.0 {
      FloorMultipleBounds(v + s as real, s);
    } else if v >= s as real {
      FloorMultipleBounds(v - s as real, s);
    }
  }

  /** For a positive size the value lies in the half-open interval its bucket starts. */
  lemma BucketBounds(v: real, s: int)
    requires s > 0
    ensures Bucket(v, s) as real <= v < (Bucket(v, s) + s) as real
  {
    FloorMultipleBounds(v, s);
  }

  /** A bucket origin is a multiple of the size. */
  lemma BucketAligned(v: real, s: int)
    requires s != 0
    ensures Bucket(v, s) % s == 0
  {
    BucketFormula(v, s);
    MultipleMod((v / s as real).Floor, s);
  }

  /** `FloorMultiple` for an integer value, stepping in integers. */
  function FloorMultipleInt(v: int, s: int): int
    requires s > 0
    decreases if v < 0 then 1 else 0, if v < 0 then -v else v
  {
    if v < 0 then FloorMultipleInt(v + s, s) - s
    else if v < s then 0
    else FloorMultipleInt(v - s, s) + s
  }

  /** `Bucket` for an integer value, as the tile columns of route mode are. */
  function BucketInt(v: int, s: int): int
    requires s != 0
  {
    if s > 0 then FloorMultipleInt(v, s) else -FloorMultipleInt(-v, -s)
  }

  lemma {:induction false} FloorMultipleIntAgrees(v: int, s: int)
    requires s > 0
    ensures FloorMultipleInt(v, s) == FloorMultiple(v as real, s)
    decreases if v < 0 then 1 else 0, if v < 0 then -v else v
  {
    if v < 0 {
      FloorMultipleIntAgrees(v + s, s);
      assert (v + s) as real == v as real + s as real;
    } else if v >= s {
      FloorMultipleIntAgrees(v - s, s);
      assert (v - s) as real == v as real - s as real;
    }
  }

  /** On integers the stepping bucket agrees with the real one, so it is the
      source's `Math.floor(v / s) * s` as well. */
  lemma BucketIntAgrees(v: int, s: int)
    requires s != 0
    ensures BucketInt(v, s) == Bucket(v as real, s)
  {
    if s > 0 {
      FloorMultipleIntAgrees(v, s);
    } else {
      FloorMultipleIntAgrees(-v, -s);
      assert (-v) as real == -(v as real);
    }
  }

  lemma MultipleMod(f: int, s: int)
    requires s != 0
    ensures (f * s) % s == 0
    ensures (f * s) / s == f
  {
    DivModOf(f, 0, s);
  }

  /** Euclidean division of `q * n + r` with `0 <= r < |n|` gives back `q` and `r`. */
  lemma DivModOf(q: int, r: int, n: int)
    requires n != 0 && 0 <= r < Abs(n)
    ensures (q * n + r) / n == q
    ensures (q * n + r) % n == r
  {
    var a := q * n + r;
    var q' := a / n;
    var r' := a % n;
    assert a == q' * n + r';
    assert (q - q') * n == r' - r;
    if q != q' {
      MulAbs(q - q', n);
    }
  }

  lemma MulAbs(d: int, n: int)
    requires d != 0 && n != 0
    ensures Abs(d * n) >= Abs(n)
  {
    if d > 0 {
      if n > 0 { assert d * n >= n; } else { assert d * n <= n; }
    } else {
      if n > 0 { assert d * n <= -n; } else { assert d * n >= -n; }
    }
  }
}

=== FILE: config.dfy ===
/** The configuration decision table of `getConfig` (src/config.ts), over an
    already parsed argument map. */
module Config {
  import opened Types
  import opened Args

  /** Where a tile server's URL comes from: a listed template, or whatever
      `parseUrl` makes of the `--tile-server` value. */
  datatype UrlSource = Template(url: string) | Parsed(server: Option<ArgValue>)

  datatype TileServer = TileServer(url: UrlSource, rateLimit: ArgValue)

  /** The built-in server list (src/tile-servers.ts). */
  const Servers: seq<TileServer> :=
    [TileServer(Template("https://a.tile.opentopomap.org/{z}/{x}/{y}.png"), Num(1.0))]

  /** `servers[n - 1]` for a numeric server `n`; `None` where JavaScript reads
      `undefined` (outside the list, or not a whole number). */
  function ListedServer(n: real): (s: Option<TileServer>)
    ensures s.Some? <==> n == n.Floor as real && 1 <= n.Floor <= |Servers|
    ensures s.Some? ==> s.value == Servers[n.Floor - 1]
  {
    if n == n.Floor as real && 1 <= n.Floor <= |Servers| then Some(Servers[n.Floor - 1]) else None
  }

  /** `getTileServer(server, rateLimit = 10)`. */
  function GetTileServer(server: Option<ArgValue>, rateLimit: Option<ArgValue>): (ts: Option<TileServer>)
    ensures server.Some? && server.value.Num? ==> ts == ListedServer(server.value.n)
    ensures !(server.Some? && server.value.Num?) ==>
      ts.Some? && ts.value.url == Parsed(server) &&
      ts.value.rateLimit == (if rateLimit.Some? then rateLimit.value else Num(10.0))
  {
    if server.Some? && server.value.Num? then ListedServer(server.value.n)
    else Some(TileServer(Parsed(server), match rateLimit case Some(r) => r case None => Num(10.0)))
  }

  /** The numbers that name a listed server: `1..servers.length`. */
  function ListedNumbers(): seq<real> {
    seq(|Servers|, k requires 0 <= k < |Servers| => (k + 1) as real)
  }

  /** The listed numbers are the whole numbers `ListedServer` accepts. */
  lemma ListedNumbersAreWhole(n: real)
    ensures n in ListedNumbers() <==> n == n.Floor as real && 1 <= n.Floor <= |Servers|
  {
    if n in ListedNumbers() {
      var k :| 0 <= k < |Servers| && ListedNumbers()[k] == n;
      assert n.Floor == k + 1;
    }
    if n == n.Floor as real && 1 <= n.Floor <= |Servers| {
      assert ListedNumbers()[n.Floor - 1] == n;
    }
  }

  /** `getTileServer` yields `undefined` exactly for a number that names no
      listed server; a listed server keeps its own rate limit, and only a
      non-numeric server is parsed and takes the rate-limit argument. */
  lemma GetTileServerChoice(server: Option<ArgValue>, rateLimit: Option<ArgValue>)
    ensures GetTileServer(server, rateLimit).None? <==>
      server.Some? && server.value.Num? && server.value.n !in ListedNumbers()
    ensures server.Some? && server.value.Num? && server.value.n in ListedNumbers() ==>
      GetTileServer(server, rateLimit).Some? && GetTileServer(server, rateLimit).value in Servers
    ensures GetTileServer(server, rateLimit).Some? ==>
      (GetTileServer(server, rateLimit).value in Servers <==> server.Some? && server.value.Num?)
  {
    if server.Some? && server.value.Num? {
      ListedNumbersAreWhole(server.value.n);
    } else {
      var ts := GetTileServer(server, rateLimit);
      forall k | 0 <= k < |Servers| ensures Servers[k] != ts.value {
        assert Servers[k].url.Template?;
      }
    }
  }

  /** An output name: given on the command line, or one of the two default
      patterns `route-<stem>-<zoom>` and `map_<n>_<w>_<s>_<e>_<zoom>`. Number
      formatting is not modelled, so defaults keep their parts. */
  datatype OutputName =
    | Given(value: ArgValue)
    | RouteDefault(stem: string, zoom: ArgValue)
    | MapDefault(north: real, west: real, south: real, east: real, zoom: ArgValue)

  datatype Config =
    | HelpConfig
    | TilesConfig
    | RouteConfig(zoom: ArgValue, pageSizeX: ArgValue, pageSizeY: ArgValue,
                  tileServer: Option<TileServer>, input: ArgValue, draw: bool,
                  distance: bool, distanceStep: ArgValue, output: OutputName)
    | MapConfig(zoom: ArgValue, pageSizeX: ArgValue, pageSizeY: ArgValue,
                tileServer: Option<TileServer>, north: real, west: real, south: real,
                east: real, output: OutputName)
      /** `input.split` throws: the input is not a string and no output was given. */
    | InputTypeError

  predicate HasBoundaries(argv: Argv) {
    && "n" in argv && argv["n"].Num?
    && "s" in argv && argv["s"].Num?
    && "e" in argv && argv["e"].Num?
    && "w" in argv && argv["w"].Num?
  }

  /** `getConfig`. */
  function GetConfig(argv: Argv): (c: Config)
    ensures c.HelpConfig? <==>
      WantsHelp(argv) ||
      (!IsSet(argv, "list-tile-servers") &&
       (!(IsSet(argv, "route") || IsSet(argv, "map")) ||
        (IsSet(argv, "route") && !IsSet(argv, "input")) ||
        (!IsSet(argv, "route") && !HasBoundaries(argv))))
    ensures c.TilesConfig? <==> !WantsHelp(argv) && IsSet(argv, "list-tile-servers")
    ensures c.RouteConfig? <==>
      && !WantsHelp(argv) && !IsSet(argv, "list-tile-servers")
      && IsSet(argv, "route") && IsSet(argv, "input")
      && (IsSet(argv, "output") || argv["input"].Str?)
    ensures c.MapConfig? <==>
      && !WantsHelp(argv) && !IsSet(argv, "list-tile-servers")
      && !IsSet(argv, "route") && IsSet(argv, "map") && HasBoundaries(argv)
    ensures c.RouteConfig? || c.MapConfig? ==>
      && c.zoom == OrElse(argv, "zoom", Num(12.0))
      && c.pageSizeX == OrElse(argv, "x", Num(4.0))
      && c.pageSizeY == OrElse(argv, "y", Num(5.0))
      && c.tileServer == GetTileServer(Get(argv, "tile-server"), Get(argv, "rate-limit"))
    ensures c.RouteConfig? ==>
      && c.input == argv["input"]
      && c.draw == ("path" !in argv || Truthy(argv["path"]))
      && c.distance == ("distance" !in argv || Truthy(argv["distance"]))
      && c.distanceStep == OrElse(argv, "distance-step", Num(10.0))
      && c.output == (if IsSet(argv, "output") then Given(argv["output"])
                      else RouteDefault(StripExtension(argv["input"].s), c.zoom))
    ensures c.MapConfig? ==>
      && c.north == argv["n"].n && c.west == argv["w"].n
      && c.south == argv["s"].n && c.east == argv["e"].n
      && c.output == (if "output" in argv then Given(argv["output"])
                      else MapDefault(c.north, c.west, c.south, c.east, c.zoom))
  {
    if WantsHelp(argv) then HelpConfig
    else if IsSet(argv, "list-tile-servers") then TilesConfig
    else if IsSet(argv, "route") || IsSet(argv, "map") then
      var zoom := OrElse(argv, "zoom", Num(12.0));
      var pageSizeX := OrElse(argv, "x", Num(4.0));
      var pageSizeY := OrElse(argv, "y", Num(5.0));
      var tileServer := GetTileServer(Get(argv, "tile-server"), Get(argv, "rate-limit"));
      if IsSet(argv, "route") then
        if !IsSet(argv, "input") then HelpConfig
        else
          var input := argv["input"];
          var output :=
            if IsSet(argv, "output") then Some(Given(argv["output"]))
            else if input.Str? then Some(RouteDefault(StripExtension(input.s), zoom))
            else None;
          if output.None? then InputTypeError
          else
            RouteConfig(zoom, pageSizeX, pageSizeY, tileServer, input,
                        Truthy(OrElse(argv, "path", Flag(true))),
                        Truthy(OrElse(argv, "distance", Flag(true))),
                        OrElse(argv, "distance-step", Num(10.0)), output.value)
      else if !HasBoundaries(argv) then HelpConfig
      else
        var north, west, south, east := argv["n"].n, argv["w"].n, argv["s"].n, argv["e"].n;
        MapConfig(zoom, pageSizeX, pageSizeY, tileServer, north, west, south, east,
                  if "output" in argv then Given(argv["output"])
                  else MapDefault(north, west, south, east, zoom))
    else HelpConfig
  }

  /** `s.split(sep)`, built from the last character: a separator starts a new
      empty part, any other character extends the last part. */
  function Split(s: string, sep: char): (parts: seq<string>)
    ensures |parts| >= 1
  {
    if |s| == 0 then [""]
    else
      var init := Split(s[..|s| - 1], sep);
      var c := s[|s| - 1];
      if c == sep then init + [""]
      else init[..|init| - 1] + [init[|init| - 1] + [c]]
  }

  /** `parts.join(sep)`. */
  function Join(parts: seq<string>, sep: char): string {
    if |parts| == 0 then ""
    else if |parts| == 1 then parts[0]
    else Join(parts[..|parts| - 1], sep) + [sep] + parts[|parts| - 1]
  }

  /** The input name without its last `.extension`: everything before the
      last '.', or nothing when there is no '.'. */
  function StripExtension(s: string): (stem: string)
    ensures '.' !in s ==> stem == ""
    ensures '.' in s ==> exists ext :: s == stem + "." + ext && '.' !in ext
  {
    if |s| == 0 then ""
    else if s[|s| - 1] == '.' then
      assert s == s[..|s| - 1] + "." + "";
      s[..|s| - 1]
    else
      var stem := StripExtension(s[..|s| - 1]);
      assert s == s[..|s| - 1] + [s[|s| - 1]];
      if '.' in s[..|s| - 1] then
        ExtendExtension(s[..|s| - 1], s[|s| - 1], stem);
        stem
      else
        stem
  }

  lemma ExtendExtension(p: string, c: char, stem: string)
    requires c != '.'
    requires exists ext :: p == stem + "." + ext && '.' !in ext
    ensures exists ext :: p + [c] == stem + "." + ext && '.' !in ext
  {
    var ext :| p == stem + "." + ext && '.' !in ext;
    assert p + [c] == stem + "." + (ext + [c]);
  }

  /** Joining the split parts gives the string back. */
  lemma {:induction false} JoinSplit(s: string, sep: char)
    ensures Join(Split(s, sep), sep) == s
  {
    if |s| > 0 {
      var p := s[..|s| - 1];
      JoinSplit(p, sep);
      assert s == p + [s[|s| - 1]];
      if s[|s| - 1] == sep {
        JoinSplitSeparator(p, sep);
      } else {
        JoinSplitChar(p, s[|s| - 1], sep);
      }
    }
  }

  /** A trailing separator opens an empty last part. */
  lemma JoinSplitSeparator(p: string, sep: char)
    requires Join(Split(p, sep), sep) == p
    ensures Join(Split(p + [sep], sep), sep) == p + [sep]
  {
    var s := p + [sep];
    assert s[..|s| - 1] == p;
    JoinSnoc(Split(p, sep), "", sep);
  }

  /** Any other character extends the last part. */
  lemma JoinSplitChar(p: string, c: char, sep: char)
    requires c != sep
    requires Join(Split(p, sep), sep) == p
    ensures Join(Split(p + [c], sep), sep) == p + [c]
  {
    var s := p + [c];
    assert s[..|s| - 1] == p;
    var init := Split(p, sep);
    var front, lastPart := init[..|init| - 1], init[|init| - 1];
    assert init == front + [lastPart];
    JoinSnoc(front, lastPart, sep);
    JoinSnoc(front, lastPart + [c], sep);
    if |front| > 0 {
      assert Join(front, sep) + [sep] + (lastPart + [c]) == (Join(front, sep) + [sep] + lastPart) + [c];
    }
  }

  /** Appending a part adds a separator and the part, or replaces an empty list. */
  lemma JoinSnoc(parts: seq<string>, last: string, sep: char)
    ensures Join(parts + [last], sep) == if |parts| == 0 then last else Join(parts, sep) + [sep] + last
  {
    assert (parts + [last])[..|parts|] == parts;
  }

  /** The default-name stem is `input.split('.').slice(0, -1).join('.')`. */
  lemma {:induction false} StripExtensionIsSplitJoin(s: string)
    ensures var parts := Split(s, '.'); StripExtension(s) == Join(parts[..|parts| - 1], '.')
  {
    if |s| > 0 {
      var p := s[..|s| - 1];
      var c := s[|s| - 1];
      var init := Split(p, '.');
      if c == '.' {
        JoinSplit(p, '.');
        assert (init + [""])[..|init|] == init;
      } else {
        StripExtensionIsSplitJoin(p);
        assert (init[..|init| - 1] + [init[|init| - 1] + [c]])[..|init| - 1] == init[..|init| - 1];
      }
    }
  }
}

=== FILE: dedup.dfy ===
/** First-seen deduplication by a key: the `findIndex(...) === -1` then `push`
    pattern that src/route.ts uses for tiles and for pages, and that fixes the
    page order of src/path.ts. */
module Dedup {

  /** The set of keys occurring in `s`. */
  ghost function KeySet<T, K>(s: seq<T>, key: T -> K): set<K> {
    set i | 0 <= i < |s| :: key(s[i])
  }

  /** No two elements of `s` share a key. */
  ghost predicate DistinctKeys<T, K>(s: seq<T>, key: T -> K) {
    forall i, j :: 0 <= i < j < |s| ==> key(s[i]) != key(s[j])
  }

  /** Index `k` is the first occurrence of its key in `s`. */
  ghost predicate IsFirst<T, K>(s: seq<T>, key: T -> K, k: int)
    requires 0 <= k < |s|
  {
    forall j :: 0 <= j < k ==> key(s[j]) != key(s[k])
  }

  /** The array already holds an element with the key of `t`. */
  predicate Found<T, K(==)>(acc: seq<T>, t: T, key: T -> K) {
    exists i :: 0 <= i < |acc| && key(acc[i]) == key(t)
  }

  /** One `forEach` step: append `t` unless its key was found. */
  function Push<T, K(==)>(acc: seq<T>, t: T, key: T -> K): seq<T> {
    if Found(acc, t, key) then acc else acc + [t]
  }

  /** The whole left-to-right pass over `s`, starting from the empty array. */
  function Dedup<T, K(==)>(s: seq<T>, key: T -> K): (r: seq<T>)
    ensures |r| <= |s|
    ensures DistinctKeys(r, key)
    ensures KeySet(r, key) == KeySet(s, key)
    ensures forall i :: 0 <= i < |r| ==> r[i] in s
  {
    if |s| == 0 then []
    else
      var init := s[..|s| - 1];
      var prev := Dedup(init, key);
      assert KeySet(s, key) == KeySet(init, key) + {key(s[|s| - 1])} by {
        KeySetSnoc(init, s[|s| - 1], key);
        assert init + [s[|s| - 1]] == s;
      }
      if Found(prev, s[|s| - 1], key) then
        assert key(s[|s| - 1]) in KeySet(prev, key);
        prev
      else
        KeySetSnoc(prev, s[|s| - 1], key);
        prev + [s[|s| - 1]]
  }

  lemma KeySetSnoc<T, K>(s: seq<T>, t: T, key: T -> K)
    ensures KeySet(s + [t], key) == KeySet(s, key) + {key(t)}
  {
    var u := s + [t];
    forall k | k in KeySet(u, key) ensures k in KeySet(s, key) + {key(t)} {
      var i :| 0 <= i < |u| && key(u[i]) == k;
      if i < |s| { assert u[i] == s[i]; }
    }
    forall k | k in KeySet(s, key) + {key(t)} ensures k in KeySet(u, key) {
      if k == key(t) {
        assert u[|s|] == t;
      } else {
        var i :| 0 <= i < |s| && key(s[i]) == k;
        assert u[i] == s[i];
      }
    }
  }

  /** Reference definition: the elements of `s[..n]` at first-occurrence
      indices, in index order. */
  ghost function FirstsUpTo<T, K>(s: seq<T>, key: T -> K, n: nat): seq<T>
    requires n <= |s|
  {
    if n == 0 then []
    else FirstsUpTo(s, key, n - 1) + (if IsFirst(s, key, n - 1) then [s[n - 1]] else [])
  }

  ghost function Firsts<T, K>(s: seq<T>, key: T -> K): seq<T> {
    FirstsUpTo(s, key, |s|)
  }

  /** The pass keeps exactly the first occurrences, in the order they are met. */
  lemma {:induction false} DedupIsFirsts<T, K>(s: seq<T>, key: T -> K)
    ensures Dedup(s, key) == Firsts(s, key)
  {
    DedupPrefix(s, key, |s|);
    assert s[..|s|] == s;
  }

  lemma {:induction false} DedupPrefix<T, K>(s: seq<T>, key: T -> K, n: nat)
    requires n <= |s|
    ensures Dedup(s[..n], key) == FirstsUpTo(s, key, n)
  {
    if n > 0 {
      DedupPrefix(s, key, n - 1);
      var p := s[..n];
      assert p[..n - 1] == s[..n - 1];
      assert p[n - 1] == s[n - 1];
      var prev := Dedup(s[..n - 1], key);
      // Found in the accumulated array exactly when an earlier point has that key.
      assert KeySet(prev, key) == KeySet(s[..n - 1], key);
      if Found(prev, s[n - 1], key) {
        var i :| 0 <= i < |prev| && key(prev[i]) == key(s[n - 1]);
        assert key(prev[i]) in KeySet(s[..n - 1], key);
        var j :| 0 <= j < n - 1 && key(s[..n - 1][j]) == key(prev[i]);
        assert key(s[j]) == key(s[n - 1]);
        assert !IsFirst(s, key, n - 1);
      } else {
        forall j | 0 <= j < n - 1 ensures key(s[j]) != key(s[n - 1]) {
          assert s[..n - 1][j] == s[j];
          assert key(s[j]) in KeySet(s[..n - 1], key);
          assert key(s[j]) in KeySet(prev, key);
        }
        assert IsFirst(s, key, n - 1);
      }
    }
  }

  /** `x` is the element of `s` at some first-occurrence index. */
  ghost predicate IsFirstOccurrence<T, K>(s: seq<T>, key: T -> K, x: T) {
    exists k :: 0 <= k < |s| && IsFirst(s, key, k) && x == s[k]
  }

  /** Every kept element is the first occurrence of its key in `s`. */
  lemma {:induction false} FirstsAreFirst<T, K>(s: seq<T>, key: T -> K, n: nat)
    requires n <= |s|
    ensures forall i :: 0 <= i < |FirstsUpTo(s, key, n)| ==>
      IsFirstOccurrence(s, key, FirstsUpTo(s, key, n)[i])
  {
    if n > 0 {
      FirstsAreFirst(s, key, n - 1);
      var prev := FirstsUpTo(s, key, n - 1);
      var cur := FirstsUpTo(s, key, n);
      forall i | 0 <= i < |cur|
        ensures IsFirstOccurrence(s, key, cur[i])
      {
        if i < |prev| {
          assert cur[i] == prev[i];
        } else {
          assert IsFirst(s, key, n - 1) && cur[i] == s[n - 1];
        }
      }
    }
  }

  /** The kept element with key `key(s[k])`, where `k` is a first occurrence,
      is `s[k]` itself. */
  lemma DedupKeepsFirst<T, K>(s: seq<T>, key: T -> K)
    ensures forall i :: 0 <= i < |Dedup(s, key)| ==> IsFirstOccurrence(s, key, Dedup(s, key)[i])
  {
    DedupIsFirsts(s, key);
    FirstsAreFirst(s, key, |s|);
    var r := Dedup(s, key);
    forall i | 0 <= i < |r|
      ensures IsFirstOccurrence(s, key, r[i])
    {
      assert r[i] == FirstsUpTo(s, key, |s|)[i];
    }
  }

  /** When every element shares one key, exactly one element survives. */
  lemma SingleKey<T, K>(s: seq<T>, key: T -> K)
    requires |s| > 0
    requires forall i :: 0 <= i < |s| ==> key(s[i]) == key(s[0])
    ensures |Dedup(s, key)| == 1
  {
    var r := Dedup(s, key);
    assert key(s[0]) in KeySet(s, key);
    assert |r| > 0;
    forall k | k in KeySet(s, key) ensures k == key(s[0]) {
      var i :| 0 <= i < |s| && key(s[i]) == k;
    }
    assert KeySet(r, key) == {key(s[0])};
    DistinctKeysCard(r, key);
  }

  /** Without repeated keys there are as many keys as elements. */
  lemma {:induction false} DistinctKeysCard<T, K>(s: seq<T>, key: T -> K)
    requires DistinctKeys(s, key)
    ensures |KeySet(s, key)| == |s|
  {
    if |s| > 0 {
      var init := s[..|s| - 1];
      var last := s[|s| - 1];
      assert init + [last] == s;
      DistinctKeysCard(init, key);
      KeySetSnoc(init, last, key);
      forall i | 0 <= i < |init| ensures key(init[i]) != key(last) {
        assert init[i] == s[i];
      }
      assert key(last) !in KeySet(init, key);
    }
  }

  /** Every input key is the key of some kept element. */
  lemma {:induction false} DedupCovers<T, K>(s: seq<T>, key: T -> K)
    ensures var r := Dedup(s, key);
      forall i :: 0 <= i < |s| ==> exists j :: 0 <= j < |r| && key(r[j]) == key(s[i])
  {
    var r := Dedup(s, key);
    forall i | 0 <= i < |s| ensures exists j :: 0 <= j < |r| && key(r[j]) == key(s[i]) {
      assert key(s[i]) in KeySet(s, key);
      assert key(s[i]) in KeySet(r, key);
      var j :| 0 <= j < |r| && key(r[j]) == key(s[i]);
    }
    assert forall i :: 0 <= i < |s| ==> exists j :: 0 <= j < |r| && key(r[j]) == key(s[i]);
    assert r == Dedup(s, key);
  }
}

=== FILE: download.dfy ===
/** Page downloading (src/download.ts): which tiles a page requests, the
    progress bar, the shared rate limit and which pages are fetched. Fetching,
    merging and file checks are left to the caller. */
module Download {
  import opened Types
  import opened Arith
  import opened Utils

  /** A page as `downloadPages` reads it: the page, its tile server's rate
      limit and the file the merged image goes to. */
  datatype PageJob = PageJob(page: Page, rateLimit: real, filename: string)

  /** The tile grid `getPage` requests: `sx` outer lists of `sy` tiles, entry
      `[i][j]` being tile `(x + i, y + j)` at the page zoom. */
  method GetPageTiles(page: Page) returns (rows: seq<seq<Tile>>)
    ensures |rows| == Max(0, page.sx)
    ensures forall i :: 0 <= i < |rows| ==> |rows[i]| == Max(0, page.sy)
    ensures forall i, j :: 0 <= i < |rows| && 0 <= j < |rows[i]| ==>
      rows[i][j] == Tile(page.x + i, page.y + j, page.zoom)
    // the requests are exactly the page's rectangle ...
    ensures forall tx, ty :: page.Contains(tx, ty) ==>
      0 <= tx - page.x < |rows| && 0 <= ty - page.y < |rows[tx - page.x]| &&
      rows[tx - page.x][ty - page.y] == Tile(tx, ty, page.zoom)
    ensures forall i, j :: 0 <= i < |rows| && 0 <= j < |rows[i]| ==>
      page.Contains(rows[i][j].x, rows[i][j].y) && rows[i][j].zoom == page.zoom
    // ... each requested once
    ensures forall i1, j1, i2, j2 ::
      (0 <= i1 < |rows| && 0 <= j1 < |rows[i1]| && 0 <= i2 < |rows| && 0 <= j2 < |rows[i2]| &&
       rows[i1][j1] == rows[i2][j2]) ==> i1 == i2 && j1 == j2
  {
    rows := [];
    var i := 0;
    while i < page.sx
      invariant |rows| == Max(0, i) && i <= Max(0, page.sx)
      invariant forall a :: 0 <= a < |rows| ==> |rows[a]| == Max(0, page.sy)
      invariant forall a, b :: 0 <= a < |rows| && 0 <= b < |rows[a]| ==>
        rows[a][b] == Tile(page.x + a, page.y + b, page.zoom)
    {
      var row := [];
      var j := 0;
      while j < page.sy
        invariant |row| == Max(0, j) && j <= Max(0, page.sy)
        invariant forall b :: 0 <= b < |row| ==> row[b] == Tile(page.x + i, page.y + b, page.zoom)
      {
        row := row + [Tile(page.x + i, page.y + j, page.zoom)];
        j := j + 1;
      }
      rows := rows + [row];
      i := i + 1;
    }
  }

  /** The progress bar `[` dots spaces `]` after `progress` of `total` tiles. */
  function ProgressBar(progress: int, total: int): (bar: string)
    requires 0 <= progress <= total
    ensures |bar| == total + 2
    ensures bar[0] == '[' && bar[total + 1] == ']'
    ensures forall k :: 1 <= k <= total ==> bar[k] == (if k <= progress then '.' else ' ')
  {
    "[" + Repeat('.', progress) + Repeat(' ', total - progress) + "]"
  }

  /** One more finished tile turns exactly the next space into a dot. */
  lemma ProgressStep(progress: int, total: int)
    requires 0 <= progress < total
    ensures ProgressBar(progress + 1, total) == ProgressBar(progress, total)[progress + 1 := '.']
  {
  }

  /** The rate limit all pages share: the least of their servers' limits;
      `None` stands for the `Infinity` an empty list reduces to. */
  function RateLimit(jobs: seq<PageJob>): (limit: Option<real>)
    ensures limit.None? <==> |jobs| == 0
    ensures limit.Some? ==> forall i :: 0 <= i < |jobs| ==> limit.value <= jobs[i].rateLimit
    ensures limit.Some? ==> exists i :: 0 <= i < |jobs| && limit.value == jobs[i].rateLimit
  {
    if |jobs| == 0 then None
    else
      var rest := RateLimit(jobs[..|jobs| - 1]);
      var last := jobs[|jobs| - 1].rateLimit;
      match rest
      case None => Some(last)
      case Some(m) => Some(if m <= last then m else last)
  }

  /** No earlier job writes the file of job `i`. */
  ghost predicate FirstWithName(jobs: seq<PageJob>, i: int)
    requires 0 <= i < |jobs|
  {
    forall j :: 0 <= j < i ==> jobs[j].filename != jobs[i].filename
  }

  /** The pages `downloadPages` fetches, in index order. `existed` tells which
      files were on disk before the loop; every fetched page is saved at once,
      so a later page with the same file name finds it and is skipped. A page
      is fetched exactly when its file did not exist and no earlier page has
      that file name. */
  method PagesToFetch(jobs: seq<PageJob>, existed: string -> bool) returns (fetched: seq<nat>)
    ensures forall a, b :: 0 <= a < b < |fetched| ==> fetched[a] < fetched[b]
    ensures forall i :: i in fetched <==>
      0 <= i < |jobs| && !existed(jobs[i].filename) && FirstWithName(jobs, i)
  {
    fetched := [];
    var saved: set<string> := {};
    var i := 0;
    while i < |jobs|
      invariant 0 <= i <= |jobs|
      invariant forall a, b :: 0 <= a < b < |fetched| ==> fetched[a] < fetched[b]
      invariant forall a :: 0 <= a < |fetched| ==> fetched[a] < i
      invariant forall k :: k in fetched <==>
        0 <= k < i && !existed(jobs[k].filename) && FirstWithName(jobs, k)
      invariant forall k :: 0 <= k < i ==> existed(jobs[k].filename) || jobs[k].filename in saved
      invariant forall name :: name in saved ==> exists k :: 0 <= k < i && jobs[k].filename == name
    {
      var name := jobs[i].filename;
      // `fileExists` sees the files saved by earlier iterations
      if !(existed(name) || name in saved) {
        assert FirstWithName(jobs, i);
        fetched := fetched + [i];
        saved := saved + {name};
      } else if name in saved {
        var k :| 0 <= k < i && jobs[k].filename == name;
        assert !FirstWithName(jobs, i);
      }
      i := i + 1;
    }
  }
}

=== FILE: map.dfy ===
/** Map mode: covering a bounding box with a row-major grid of pages
    (`boundaries2pages` in src/map.ts). */
module MapMode {
  import opened Types
  import opened Arith
  import opened Osm

  /** The grid `boundaries2pages` walks: the north-west tile, the page size,
      and how many page columns and rows its two loops run. */
  datatype Grid = Grid(x0: int, y0: int, sx: int, sy: int, zoom: nat, cols: nat, rows: nat)
  {
    /** The page pushed for page row `r` and page column `c`. */
    function PageAt(r: nat, c: nat): Page {
      Page(x0 + Times(c, sx), y0 + Times(r, sy), sx, sy, zoom)
    }

    /** One run of the inner loop: page row `r`, west to east. */
    function Row(r: nat): seq<Page> {
      seq(cols, c requires 0 <= c < cols => PageAt(r, c))
    }

    /** The first `n` runs of the outer loop: page rows north to south. */
    function Rows(n: nat): (ps: seq<Page>)
      ensures |ps| == Times(n, cols)
      ensures forall k :: 0 <= k < |ps| ==> ps[k].sx == sx && ps[k].sy == sy && ps[k].zoom == zoom
    {
      if n == 0 then [] else Rows(n - 1) + Row(n - 1)
    }

    /** Every page of the grid, in the order the loops push them. */
    function Pages(): seq<Page> {
      Rows(rows)
    }
  }

  /** The two loops of `boundaries2pages` terminate: a zero page height makes
      the row count Infinity, and a zero page width makes the column count
      Infinity, which only ends when no row is ever entered. */
  predicate Terminates(pageSizeX: int, pageSizeY: int) {
    pageSizeY != 0 && (pageSizeX == 0 ==> pageSizeY < 0)
  }

  /** How often `for (p = 0; p < Math.ceil(n / s); p++)` runs over a box
      extent `n`, which is at least one tile: never for a negative page size. */
  function LoopCount(n: int, s: int): nat {
    if s > 0 then PagesNeeded(n, s) else 0
  }

  function Layout(box: Box, pageSizeX: int, pageSizeY: int, zoom: nat, project: LatProjection): Grid
    requires Terminates(pageSizeX, pageSizeY)
  {
    var size := GetTileSize(box, zoom, project);
    // with a zero width there are no rows, so no column is ever emitted
    Grid(Lon2Tile(box.west, zoom), Lat2Tile(box.north, zoom, project), pageSizeX, pageSizeY, zoom,
      LoopCount(size.width, pageSizeX), LoopCount(size.height, pageSizeY))
  }

  /** `boundaries2pages`: the outer loop walks page rows north to south, the
      inner loop page columns west to east. */
  method Boundaries2Pages(box: Box, pageSizeX: int, pageSizeY: int, zoom: nat, project: LatProjection)
    returns (pages: seq<Page>)
    requires Terminates(pageSizeX, pageSizeY)
    ensures pages == Layout(box, pageSizeX, pageSizeY, zoom, project).Pages()
    ensures var g := Layout(box, pageSizeX, pageSizeY, zoom, project);
      |pages| == Times(g.rows, g.cols)
    ensures pageSizeX < 0 || pageSizeY < 0 ==> pages == []
    ensures forall k :: 0 <= k < |pages| ==>
      pages[k].sx == pageSizeX && pages[k].sy == pageSizeY && pages[k].zoom == zoom
    ensures |pages| > 0 ==>
      pages[0].x == Lon2Tile(box.west, zoom) && pages[0].y == Lat2Tile(box.north, zoom, project)
  {
    var g := Layout(box, pageSizeX, pageSizeY, zoom, project);
    pages := EnumerateGrid(g);
    TimesZero(g.rows);
    if |pages| > 0 {
      assert g.rows > 0 && g.cols > 0;
      RowsIndexAt(g, g.rows, 0, 0);
    }
  }

  /** The two nested loops of `boundaries2pages` over a computed grid. */
  method EnumerateGrid(g: Grid) returns (pages: seq<Page>)
    ensures pages == g.Pages()
  {
    pages := [];
    var py := 0;
    while py < g.rows
      invariant 0 <= py <= g.rows
      invariant pages == g.Rows(py)
    {
      var px := 0;
      while px < g.cols
        invariant 0 <= px <= g.cols
        invariant pages == g.Rows(py) + g.Row(py)[..px]
      {
        TimesIsProduct(px, g.sx);
        TimesIsProduct(py, g.sy);
        assert g.Row(py)[..px + 1] == g.Row(py)[..px] + [g.PageAt(py, px)];
        pages := pages + [Page(g.x0 + px * g.sx, g.y0 + py * g.sy, g.sx, g.sy, g.zoom)];
        px := px + 1;
      }
      assert g.Row(py)[..g.cols] == g.Row(py);
      py := py + 1;
    }
  }

  /** Page `p` is the one at position `k` of `pages`. */
  ghost predicate PushedAt(pages: seq<Page>, k: int, p: Page) {
    0 <= k < |pages| && pages[k] == p
  }

  /** Row-major order: page row `r`, column `c` is pushed at position
      `r * cols + c`. */
  lemma {:induction false} RowsIndex(g: Grid, n: nat)
    ensures forall r: nat, c: nat :: r < n && c < g.cols ==>
      PushedAt(g.Rows(n), Times(r, g.cols) + c, g.PageAt(r, c))
  {
    forall r: nat, c: nat | r < n && c < g.cols
      ensures PushedAt(g.Rows(n), Times(r, g.cols) + c, g.PageAt(r, c))
    {
      RowsIndexAt(g, n, r, c);
    }
  }

  lemma {:induction false} RowsIndexAt(g: Grid, n: nat, r: nat, c: nat)
    requires r < n && c < g.cols
    ensures PushedAt(g.Rows(n), Times(r, g.cols) + c, g.PageAt(r, c))
  {
    TimesNonNegative(r, g.cols);
    if r < n - 1 {
      RowsIndexAt(g, n - 1, r, c);
      TimesGap(r, n - 1, g.cols);
    }
  }

  /** The loop counts are the source's `Math.ceil(width / pageSizeX)` and
      `Math.ceil(height / pageSizeY)`, and zero where those are not positive. */
  lemma LayoutCounts(box: Box, pageSizeX: int, pageSizeY: int, zoom: nat, project: LatProjection)
    requires Terminates(pageSizeX, pageSizeY)
    ensures var g := Layout(box, pageSizeX, pageSizeY, zoom, project);
            var size := GetTileSize(box, zoom, project);
            && (pageSizeX != 0 ==> g.cols == Max(0, CeilQuot(size.width, pageSizeX)))
            && g.rows == Max(0, CeilQuot(size.height, pageSizeY))
  {
    var size := GetTileSize(box, zoom, project);
    if pageSizeX > 0 {
      PagesNeededIsCeil(size.width, pageSizeX);
    } else if pageSizeX < 0 {
      CeilQuotSign(size.width, pageSizeX);
    }
    if pageSizeY > 0 {
      PagesNeededIsCeil(size.height, pageSizeY);
    } else {
      CeilQuotSign(size.height, pageSizeY);
    }
  }

  /** For positive page sizes there are `pagesX * pagesY` pages. */
  lemma PageCount(box: Box, pageSizeX: int, pageSizeY: int, zoom: nat, project: LatProjection)
    requires pageSizeX > 0 && pageSizeY > 0
    ensures var size := GetTileSize(box, zoom, project);
      |Layout(box, pageSizeX, pageSizeY, zoom, project).Pages()|
        == CeilQuot(size.width, pageSizeX) * CeilQuot(size.height, pageSizeY)
  {
    var g := Layout(box, pageSizeX, pageSizeY, zoom, project);
    LayoutCounts(box, pageSizeX, pageSizeY, zoom, project);
    var size := GetTileSize(box, zoom, project);
    CeilQuotSign(size.width, pageSizeX);
    CeilQuotSign(size.height, pageSizeY);
    TimesIsProduct(g.rows, g.cols);
  }

  /** Over a positive page size the grid overshoots the box by less than one page. */
  lemma GridOvershoot(box: Box, pageSizeX: int, pageSizeY: int, zoom: nat, project: LatProjection)
    requires pageSizeX > 0 && pageSizeY > 0
    ensures var g := Layout(box, pageSizeX, pageSizeY, zoom, project);
            var size := GetTileSize(box, zoom, project);
            && size.width <= Times(g.cols, pageSizeX) < size.width + pageSizeX
            && size.height <= Times(g.rows, pageSizeY) < size.height + pageSizeY
  {
    var size := GetTileSize(box, zoom, project);
    PagesNeededBounds(size.width, pageSizeX);
    PagesNeededBounds(size.height, pageSizeY);
  }

  /** Every page of the first `n` rows lies inside the first `n` row bands. */
  lemma {:induction false} RowsAbove(g: Grid, n: nat)
    requires g.sy > 0
    ensures forall k :: 0 <= k < |g.Rows(n)| ==>
      g.y0 <= g.Rows(n)[k].y && g.Rows(n)[k].y + g.sy <= g.y0 + Times(n, g.sy)
  {
    if n > 0 {
      RowsAbove(g, n - 1);
      TimesNonNegative(n - 1, g.sy);
    }
  }

  /** No tile lies on two different pages of the first `n` rows. */
  lemma {:induction false} RowsDisjoint(g: Grid, n: nat, tx: int, ty: int)
    requires g.sx > 0 && g.sy > 0
    ensures forall k1, k2 ::
      (0 <= k1 < |g.Rows(n)| && 0 <= k2 < |g.Rows(n)| && k1 != k2 && g.Rows(n)[k1].Contains(tx, ty))
        ==> !g.Rows(n)[k2].Contains(tx, ty)
  {
    if n > 0 {
      RowsDisjoint(g, n - 1, tx, ty);
      RowsAbove(g, n - 1);
      var ps, m := g.Rows(n), |g.Rows(n - 1)|;
      forall k1, k2 | 0 <= k1 < |ps| && 0 <= k2 < |ps| && k1 != k2 && ps[k1].Contains(tx, ty)
        ensures !ps[k2].Contains(tx, ty)
      {
        if m <= k1 && m <= k2 {
          if k1 < k2 {
            TimesGap(k1 - m, k2 - m, g.sx);
          } else {
            TimesGap(k2 - m, k1 - m, g.sx);
          }
        }
      }
    }
  }

  /** A tile lies on exactly one page of `pages`. */
  ghost predicate CoveredOnce(pages: seq<Page>, tx: int, ty: int) {
    && (exists k :: 0 <= k < |pages| && pages[k].Contains(tx, ty))
    && forall k1, k2 ::
         (0 <= k1 < |pages| && 0 <= k2 < |pages| && pages[k1].Contains(tx, ty) && pages[k2].Contains(tx, ty))
           ==> k1 == k2
  }

  /** Every tile of the grid's footprint lies on exactly one page. */
  lemma GridCoverage(g: Grid, tx: int, ty: int)
    requires g.sx > 0 && g.sy > 0
    requires g.x0 <= tx < g.x0 + Times(g.cols, g.sx) && g.y0 <= ty < g.y0 + Times(g.rows, g.sy)
    ensures CoveredOnce(g.Pages(), tx, ty)
  {
    var c := FindBand(tx - g.x0, g.sx, g.cols);
    var r := FindBand(ty - g.y0, g.sy, g.rows);
    RowsIndexAt(g, g.rows, r, c);
    RowsDisjoint(g, g.rows, tx, ty);
  }

  /** No two pages of a grid share an origin. */
  lemma GridOriginsDistinct(g: Grid)
    requires g.sx > 0 && g.sy > 0
    ensures forall k1, k2 :: 0 <= k1 < k2 < |g.Pages()| ==>
      (g.Pages()[k1].x, g.Pages()[k1].y) != (g.Pages()[k2].x, g.Pages()[k2].y)
  {
    var ps := g.Pages();
    forall k1, k2 | 0 <= k1 < k2 < |ps|
      ensures (ps[k1].x, ps[k1].y) != (ps[k2].x, ps[k2].y)
    {
      RowsDisjoint(g, g.rows, ps[k1].x, ps[k1].y);
    }
  }

  /** Coverage of the requested box: with positive page sizes, every tile of
      the box's tile footprint, starting at the north-west tile, lies on
      exactly one page. */
  lemma RegionCovered(box: Box, pageSizeX: int, pageSizeY: int, zoom: nat, project: LatProjection)
    requires pageSizeX > 0 && pageSizeY > 0
    ensures var g := Layout(box, pageSizeX, pageSizeY, zoom, project);
            var size := GetTileSize(box, zoom, project);
            forall tx, ty :: g.x0 <= tx < g.x0 + size.width && g.y0 <= ty < g.y0 + size.height ==>
              CoveredOnce(g.Pages(), tx, ty)
  {
    var g := Layout(box, pageSizeX, pageSizeY, zoom, project);
    GridOvershoot(box, pageSizeX, pageSizeY, zoom, project);
    var size := GetTileSize(box, zoom, project);
    forall tx, ty | g.x0 <= tx < g.x0 + size.width && g.y0 <= ty < g.y0 + size.height
      ensures CoveredOnce(g.Pages(), tx, ty)
    {
      GridCoverage(g, tx, ty);
    }
  }

  /** For a box drawn west to east, whose north edge lies in a tile row at or
      above its south edge, the block the grid is anchored to is exactly the
      box's own tile span. */
  lemma FootprintIsBoxSpan(box: Box, pageSizeX: int, pageSizeY: int, zoom: nat, project: LatProjection)
    requires Terminates(pageSizeX, pageSizeY)
    requires box.west <= box.east
    requires Lat2Tile(box.north, zoom, project) <= Lat2Tile(box.south, zoom, project)
    ensures var g := Layout(box, pageSizeX, pageSizeY, zoom, project);
            var size := GetTileSize(box, zoom, project);
            && (forall tx :: g.x0 <= tx < g.x0 + size.width <==>
                  tx in Span(Lon2Tile(box.west, zoom), Lon2Tile(box.east, zoom)))
            && (forall ty :: g.y0 <= ty < g.y0 + size.height <==>
                  ty in Span(Lat2Tile(box.north, zoom, project), Lat2Tile(box.south, zoom, project)))
  {
    Lon2TileMonotone(box.west, box.east, zoom);
  }

  /** Every tile of such a box lies on exactly one page. */
  lemma BoxCovered(box: Box, pageSizeX: int, pageSizeY: int, zoom: nat, project: LatProjection)
    requires pageSizeX > 0 && pageSizeY > 0
    requires box.west <= box.east
    requires Lat2Tile(box.north, zoom, project) <= Lat2Tile(box.south, zoom, project)
    ensures var g := Layout(box, pageSizeX, pageSizeY, zoom, project);
            forall tx, ty ::
              tx in Span(Lon2Tile(box.west, zoom), Lon2Tile(box.east, zoom)) &&
              ty in Span(Lat2Tile(box.north, zoom, project), Lat2Tile(box.south, zoom, project)) ==>
                CoveredOnce(g.Pages(), tx, ty)
  {
    FootprintIsBoxSpan(box, pageSizeX, pageSizeY, zoom, project);
    RegionCovered(box, pageSizeX, pageSizeY, zoom, project);
  }

  /** With a non-negative page width no page starts west of the anchor column. */
  lemma {:induction false} RowsEastOfAnchor(g: Grid, n: nat)
    requires g.sx >= 0
    ensures forall k :: 0 <= k < |g.Rows(n)| ==> g.x0 <= g.Rows(n)[k].x
  {
    if n > 0 {
      RowsEastOfAnchor(g, n - 1);
      var row := g.Row(n - 1);
      forall c | 0 <= c < |row| ensures g.x0 <= row[c].x {
        TimesNonNegative(c, g.sx);
      }
    }
  }

  /** The grid is anchored at `lon2tile(west)` and runs east, so when the
      box's east edge lies in a tile column west of that anchor, the east-edge
      column is on no page. */
  lemma EastEdgeWestOfAnchorUncovered(box: Box, pageSizeX: int, pageSizeY: int, zoom: nat, project: LatProjection)
    requires Terminates(pageSizeX, pageSizeY)
    requires pageSizeX >= 0
    requires Lon2Tile(box.east, zoom) < Lon2Tile(box.west, zoom)
    ensures var g := Layout(box, pageSizeX, pageSizeY, zoom, project);
            forall k, ty :: 0 <= k < |g.Pages()| ==> !g.Pages()[k].Contains(Lon2Tile(box.east, zoom), ty)
  {
    var g := Layout(box, pageSizeX, pageSizeY, zoom, project);
    RowsEastOfAnchor(g, g.rows);
  }

  /** An instance: at zoom 1, west 90 and east -90 give anchor column 1, and
      the east-edge column 0 is never covered. */
  lemma SwappedBoxMissesEastEdge(project: LatProjection)
    ensures var box := Box(0.0, 90.0, 0.0, -90.0);
            var g := Layout(box, 1, 1, 1, project);
            && Lon2Tile(box.east, 1) == 0 && g.x0 == 1
            && forall k, ty :: 0 <= k < |g.Pages()| ==> !g.Pages()[k].Contains(0, ty)
  {
  }
}

=== FILE: osm.dfy ===
/** Slippy-map projections between degrees and tile indices (src/osm.ts). */
module Osm {
  import opened Types
  import opened Arith

  /** Fractional tile column of a longitude: the linear map sending -180 degrees
      to column 0 and +180 degrees to column 2^zoom. */
  function Lon2TileExact(lon: real, zoom: nat): (x: real)
    ensures lon == -180.0 ==> x == 0.0
    ensures lon == 180.0 ==> x == Pow2(zoom) as real
  {
    ScaleUpEnds(zoom);
    ScaleUp((lon + 180.0) / 360.0, zoom)
  }

  /** `lon2tileExact` is `((lon + 180) / 360) * Math.pow(2, zoom)`. */
  lemma {:induction false} Lon2TileExactFormula(lon: real, zoom: nat)
    ensures Lon2TileExact(lon, zoom) == ((lon + 180.0) / 360.0) * Pow2(zoom) as real
  {
    ScaleUpIsProduct((lon + 180.0) / 360.0, zoom);
  }

  /** Longitude of the west edge of (fractional) tile column `x`. */
  function Tile2Lon(x: real, zoom: nat): real {
    ScaleDown(x, zoom) * 360.0 - 180.0
  }

  /** `tile2lon` is `(x / Math.pow(2, zoom)) * 360 - 180`. */
  lemma Tile2LonFormula(x: real, zoom: nat)
    ensures Tile2Lon(x, zoom) == (x / Pow2(zoom) as real) * 360.0 - 180.0
  {
    ScaleDownIsQuotient(x, zoom);
  }

  /** The longitude projection is strictly increasing. */
  lemma Lon2TileExactIncreasing(a: real, b: real, zoom: nat)
    requires a < b
    ensures Lon2TileExact(a, zoom) < Lon2TileExact(b, zoom)
  {
    ScaleUpIncreasing((a + 180.0) / 360.0, (b + 180.0) / 360.0, zoom);
  }

  /** Over exact reals, projecting and un-projecting a longitude gives it back. */
  lemma LonRoundTrip(lon: real, zoom: nat)
    ensures Tile2Lon(Lon2TileExact(lon, zoom), zoom) == lon
  {
    ScaleDownUp((lon + 180.0) / 360.0, zoom);
  }

  /** ... and un-projecting a tile column and projecting it again gives it back. */
  lemma TileRoundTrip(x: real, zoom: nat)
    ensures Lon2TileExact(Tile2Lon(x, zoom), zoom) == x
  {
    var d := ScaleDown(x, zoom);
    assert (d * 360.0 - 180.0 + 180.0) / 360.0 == d;
    ScaleUpDown(x, zoom);
  }

  /** `lon2tile`: the tile column holding a longitude, the floor of the exact value. */
  function Lon2Tile(lon: real, zoom: nat): (t: int)
    ensures t as real <= Lon2TileExact(lon, zoom) < t as real + 1.0
  {
    Lon2TileExact(lon, zoom).Floor
  }

  /** `lat2tile`: the tile row holding a latitude, the floor of the exact value. */
  function Lat2Tile(lat: real, zoom: nat, project: LatProjection): (t: int)
    ensures t as real <= project(lat, zoom) < t as real + 1.0
  {
    project(lat, zoom).Floor
  }

  /** Flooring preserves order, so `lon2tile` never decreases with the longitude. */
  lemma Lon2TileMonotone(a: real, b: real, zoom: nat)
    requires a <= b
    ensures Lon2Tile(a, zoom) <= Lon2Tile(b, zoom)
  {
    if a < b {
      Lon2TileExactIncreasing(a, b, zoom);
    }
  }

  datatype TileSize = TileSize(width: int, height: int)

  /** The integer tile indices from `a` to `b` inclusive, in either order. */
  ghost function Span(a: int, b: int): set<int> {
    Range(Min(a, b), Max(a, b))
  }

  /** The integers from `lo` to `hi` inclusive. */
  ghost function Range(lo: int, hi: int): (r: set<int>)
    ensures forall t :: t in r <==> lo <= t <= hi
    decreases hi - lo
  {
    if lo > hi then {} else Range(lo, hi - 1) + {hi}
  }

  /** `getTileSize`: the box's extent in whole tiles, counting both edge tiles. */
  function GetTileSize(box: Box, zoom: nat, project: LatProjection): (size: TileSize)
    ensures size.width >= 1 && size.height >= 1
    ensures size.width == |Span(Lon2Tile(box.west, zoom), Lon2Tile(box.east, zoom))|
    ensures size.height == |Span(Lat2Tile(box.north, zoom, project), Lat2Tile(box.south, zoom, project))|
    ensures box.north == box.south && box.west == box.east ==> size == TileSize(1, 1)
  {
    var topTile := Lat2Tile(box.north, zoom, project);
    var bottomTile := Lat2Tile(box.south, zoom, project);
    var leftTile := Lon2Tile(box.west, zoom);
    var rightTile := Lon2Tile(box.east, zoom);
    SpanSize(leftTile, rightTile);
    SpanSize(topTile, bottomTile);
    TileSize(Abs(leftTile - rightTile) + 1, Abs(topTile - bottomTile) + 1)
  }

  /** There are `|a - b| + 1` integers between `a` and `b` inclusive. */
  lemma SpanSize(a: int, b: int)
    ensures |Span(a, b)| == Abs(a - b) + 1
  {
    RangeSize(Min(a, b), Max(a, b));
  }

  lemma {:induction false} RangeSize(lo: int, hi: int)
    requires lo <= hi
    ensures |Range(lo, hi)| == hi - lo + 1
    decreases hi - lo
  {
    if lo < hi {
      RangeSize(lo, hi - 1);
      assert hi !in Range(lo, hi - 1);
    }
  }

  /** Swapping west with east, or north with south, leaves the size unchanged. */
  lemma GetTileSizeSymmetric(box: Box, zoom: nat, project: LatProjection)
    ensures GetTileSize(Box(box.north, box.east, box.south, box.west), zoom, project)
         == GetTileSize(box, zoom, project)
    ensures GetTileSize(Box(box.south, box.west, box.north, box.east), zoom, project)
         == GetTileSize(box, zoom, project)
  {
  }
}

=== FILE: path.dfy ===
/** Path mode: exact tile coordinates of a track and the dictionary of pages
    it crosses (`getTileRoute` and `collectPages` in src/path.ts). */
module PathMode {
  import opened Types
  import opened Arith
  import opened Osm
  import Dedup
  import RouteMode

  /** A page of the path dictionary: the page geometry, the paths drawn on it
      and its position in the output document. */
  datatype PathPage = PathPage(paths: seq<seq<ExactTile>>, x: int, y: int, sx: int, sy: int,
                               zoom: nat, position: nat)

  /** The dictionary, keyed by the page origin `(pageX, pageY)`. */
  type PageDict = map<(int, int), PathPage>

  /** `getTileRoute`: every track point projected to exact tile coordinates. */
  function GetTileRoute(route: seq<Coordinate>, zoom: nat, project: LatProjection): (tileRoute: seq<ExactTile>)
    ensures |tileRoute| == |route|
    ensures forall i :: 0 <= i < |route| ==>
      && tileRoute[i].zoom == zoom
      && tileRoute[i].x == Lon2TileExact(route[i].lon, zoom)
      && tileRoute[i].y == project(route[i].lat, zoom)
  {
    seq(|route|, i requires 0 <= i < |route| =>
      ExactTile(Lon2TileExact(route[i].lon, zoom), project(route[i].lat, zoom), zoom))
  }

  /** Un-projecting an exact tile column gives back the point's longitude. */
  lemma GetTileRouteInverts(route: seq<Coordinate>, zoom: nat, project: LatProjection)
    ensures var tileRoute := GetTileRoute(route, zoom, project);
      forall i :: 0 <= i < |route| ==> Tile2Lon(tileRoute[i].x, zoom) == route[i].lon
  {
    forall i | 0 <= i < |route| {
      LonRoundTrip(route[i].lon, zoom);
    }
  }

  /** Flooring an exact tile gives the tile route mode assigns to the same point. */
  lemma GetTileRouteFloors(route: seq<Coordinate>, zoom: nat, project: LatProjection)
    ensures var tileRoute := GetTileRoute(route, zoom, project);
      forall i :: 0 <= i < |route| ==>
        Tile(tileRoute[i].x.Floor, tileRoute[i].y.Floor, zoom) == RouteMode.PointTile(route[i], zoom, project)
  {
  }

  /** The page origin a tile point is bucketed into. */
  function BucketOf(size: Size): ExactTile -> (int, int) {
    (t: ExactTile) => (Bucket(t.x, size.sx), Bucket(t.y, size.sy))
  }

  /** The dictionary and the `currentPage` counter after some points. */
  datatype Collected = Collected(dict: PageDict, next: nat)

  /** The loop of `collectPages` after its first `n` iterations. */
  function CollectUpTo(tileRoute: seq<ExactTile>, n: nat, size: Size): Collected
    requires n <= |tileRoute|
  {
    if n == 0 then Collected(map[], 0)
    else Step(CollectUpTo(tileRoute, n - 1, size), tileRoute[n - 1], tileRoute, size)
  }

  /** One iteration: a tile whose bucket has no entry yet creates one, with
      the whole route as its only path and the next free position. */
  function Step(acc: Collected, tile: ExactTile, tileRoute: seq<ExactTile>, size: Size): Collected {
    var id := BucketOf(size)(tile);
    if id in acc.dict then acc
    else Collected(acc.dict[id := PathPage([tileRoute], id.0, id.1, size.sx, size.sy, tile.zoom, acc.next)],
                   acc.next + 1)
  }

  /** `collectPages`: one page per distinct bucket the route enters. */
  function CollectPages(tileRoute: seq<ExactTile>, size: Size): (dict: PageDict)
    ensures dict.Keys == Dedup.KeySet(tileRoute, BucketOf(size))
    ensures forall id :: id in dict ==>
      && dict[id].x == id.0 && dict[id].y == id.1
      && dict[id].sx == size.sx && dict[id].sy == size.sy
      && dict[id].paths == [tileRoute]
      && dict[id].position < |dict|
    ensures forall id1, id2 :: id1 in dict && id2 in dict && id1 != id2 ==>
      dict[id1].position != dict[id2].position
  {
    CollectFacts(tileRoute, size);
    CollectUpTo(tileRoute, |tileRoute|, size).dict
  }

  /** The entry a first-seen tile creates at a given position. */
  function EntryFor(t: ExactTile, position: nat, tileRoute: seq<ExactTile>, size: Size): PathPage {
    PathPage([tileRoute], BucketOf(size)(t).0, BucketOf(size)(t).1, size.sx, size.sy, t.zoom, position)
  }

  /** The loop state matches the first-seen bucket list `firsts`: one entry
      per element of `firsts`, created by it, at its index. */
  ghost predicate Matches(acc: Collected, firsts: seq<ExactTile>, tileRoute: seq<ExactTile>, size: Size) {
    && acc.next == |firsts|
    && acc.dict.Keys == Dedup.KeySet(firsts, BucketOf(size))
    && forall k :: 0 <= k < |firsts| ==>
         BucketOf(size)(firsts[k]) in acc.dict &&
         acc.dict[BucketOf(size)(firsts[k])] == EntryFor(firsts[k], k, tileRoute, size)
  }

  /** After `n` iterations the dictionary is exactly the first-seen
      deduplication of the first `n` tiles, with positions counting up. */
  lemma {:induction false} CollectMatchesDedup(tileRoute: seq<ExactTile>, n: nat, size: Size)
    requires n <= |tileRoute|
    ensures Matches(CollectUpTo(tileRoute, n, size), Dedup.Dedup(tileRoute[..n], BucketOf(size)),
                    tileRoute, size)
  {
    if n > 0 {
      CollectMatchesDedup(tileRoute, n - 1, size);
      assert tileRoute[..n][..n - 1] == tileRoute[..n - 1];
      assert tileRoute[..n][n - 1] == tileRoute[n - 1];
      StepMatches(CollectUpTo(tileRoute, n - 1, size), Dedup.Dedup(tileRoute[..n - 1], BucketOf(size)),
                  tileRoute[n - 1], tileRoute, size);
    }
  }

  /** A loop iteration and a first-seen push keep the state matching. */
  lemma StepMatches(acc: Collected, prev: seq<ExactTile>, t: ExactTile, tileRoute: seq<ExactTile>, size: Size)
    requires Matches(acc, prev, tileRoute, size)
    requires Dedup.DistinctKeys(prev, BucketOf(size))
    ensures Matches(Step(acc, t, tileRoute, size), Dedup.Push(prev, t, BucketOf(size)), tileRoute, size)
  {
    var key := BucketOf(size);
    if key(t) in acc.dict {
      assert key(t) in Dedup.KeySet(prev, key);
      var i :| 0 <= i < |prev| && key(prev[i]) == key(t);
      assert Dedup.Found(prev, t, key);
    } else {
      StepMatchesNew(acc, prev, t, tileRoute, size);
    }
  }

  lemma StepMatchesNew(acc: Collected, prev: seq<ExactTile>, t: ExactTile, tileRoute: seq<ExactTile>, size: Size)
    requires Matches(acc, prev, tileRoute, size)
    requires BucketOf(size)(t) !in acc.dict
    ensures Matches(Step(acc, t, tileRoute, size), Dedup.Push(prev, t, BucketOf(size)), tileRoute, size)
  {
    var key := BucketOf(size);
    forall i | 0 <= i < |prev| ensures key(prev[i]) != key(t) {
      assert key(prev[i]) in Dedup.KeySet(prev, key);
    }
    assert !Dedup.Found(prev, t, key);
    var cur := prev + [t];
    Dedup.KeySetSnoc(prev, t, key);
    var next := Step(acc, t, tileRoute, size);
    forall k | 0 <= k < |cur|
      ensures key(cur[k]) in next.dict && next.dict[key(cur[k])] == EntryFor(cur[k], k, tileRoute, size)
    {
      if k < |prev| {
        assert cur[k] == prev[k];
        assert key(prev[k]) in Dedup.KeySet(prev, key);
      }
    }
  }

  /** Consequences for the finished loop. */
  lemma CollectFacts(tileRoute: seq<ExactTile>, size: Size)
    ensures var dict := CollectUpTo(tileRoute, |tileRoute|, size).dict;
      && dict.Keys == Dedup.KeySet(tileRoute, BucketOf(size))
      && (forall id :: id in dict ==>
            && dict[id].x == id.0 && dict[id].y == id.1
            && dict[id].sx == size.sx && dict[id].sy == size.sy
            && dict[id].paths == [tileRoute]
            && dict[id].position < |dict|)
      && (forall id1, id2 :: id1 in dict && id2 in dict && id1 != id2 ==>
            dict[id1].position != dict[id2].position)
  {
    var key := BucketOf(size);
    CollectMatchesDedup(tileRoute, |tileRoute|, size);
    assert tileRoute[..|tileRoute|] == tileRoute;
    var d := Dedup.Dedup(tileRoute, key);
    var dict := CollectUpTo(tileRoute, |tileRoute|, size).dict;
    Dedup.DistinctKeysCard(d, key);
    assert |dict| == |d| by {
      assert |dict.Keys| == |Dedup.KeySet(d, key)|;
    }
    forall id | id in dict
      ensures exists k :: 0 <= k < |d| && key(d[k]) == id && dict[id] == EntryFor(d[k], k, tileRoute, size)
    {
      assert id in Dedup.KeySet(d, key);
      var k :| 0 <= k < |d| && key(d[k]) == id;
    }
  }

  /** Positions are handed out in first-encounter order: the `k`-th distinct
      bucket along the route gets position `k` and the zoom of the tile that
      reached it first. */
  lemma CollectPagesOrder(tileRoute: seq<ExactTile>, size: Size)
    ensures var d := Dedup.Dedup(tileRoute, BucketOf(size));
            var dict := CollectPages(tileRoute, size);
            forall k :: 0 <= k < |d| ==>
              BucketOf(size)(d[k]) in dict &&
              dict[BucketOf(size)(d[k])].position == k &&
              dict[BucketOf(size)(d[k])].zoom == d[k].zoom
  {
    CollectMatchesDedup(tileRoute, |tileRoute|, size);
    assert tileRoute[..|tileRoute|] == tileRoute;
  }

  /** There are as many pages as distinct buckets along the route. */
  lemma CollectPagesCount(tileRoute: seq<ExactTile>, size: Size)
    ensures |CollectPages(tileRoute, size)| == |Dedup.Dedup(tileRoute, BucketOf(size))|
  {
    var key := BucketOf(size);
    CollectMatchesDedup(tileRoute, |tileRoute|, size);
    assert tileRoute[..|tileRoute|] == tileRoute;
    var d := Dedup.Dedup(tileRoute, key);
    Dedup.DistinctKeysCard(d, key);
    var dict := CollectPages(tileRoute, size);
    assert |dict.Keys| == |Dedup.KeySet(d, key)|;
  }

  /** An entry, once created, is never overwritten by later tiles. */
  lemma {:induction false} CollectNeverOverwrites(tileRoute: seq<ExactTile>, m: nat, n: nat, size: Size)
    requires m <= n <= |tileRoute|
    ensures var before := CollectUpTo(tileRoute, m, size).dict;
            var after := CollectUpTo(tileRoute, n, size).dict;
            forall id :: id in before ==> id in after && after[id] == before[id]
    decreases n - m
  {
    if m < n {
      CollectNeverOverwrites(tileRoute, m, n - 1, size);
    }
  }

  /** With positive page sizes, every route point lies inside the page of its bucket. */
  lemma TilesInsideTheirPage(tileRoute: seq<ExactTile>, size: Size)
    requires size.sx > 0 && size.sy > 0
    ensures var dict := CollectPages(tileRoute, size);
      forall i :: 0 <= i < |tileRoute| ==>
        var page := dict[BucketOf(size)(tileRoute[i])];
        page.x as real <= tileRoute[i].x < (page.x + page.sx) as real &&
        page.y as real <= tileRoute[i].y < (page.y + page.sy) as real
  {
    var dict := CollectPages(tileRoute, size);
    forall i | 0 <= i < |tileRoute|
      ensures BucketOf(size)(tileRoute[i]) in dict
    {
      assert BucketOf(size)(tileRoute[i]) in Dedup.KeySet(tileRoute, BucketOf(size));
    }
    forall i | 0 <= i < |tileRoute|
      ensures var page := dict[BucketOf(size)(tileRoute[i])];
        page.x as real <= tileRoute[i].x < (page.x + page.sx) as real &&
        page.y as real <= tileRoute[i].y < (page.y + page.sy) as real
    {
      BucketBounds(tileRoute[i].x, size.sx);
      BucketBounds(tileRoute[i].y, size.sy);
    }
  }
}

=== FILE: route.dfy ===
/** Route mode: the tiles a GPS track passes and the pages holding them
    (`route2tiles` and `tiles2pages` in src/route.ts). */
module RouteMode {
  import opened Types
  import opened Arith
  import opened Osm
  import Dedup

  /** The floored tile of one track point. */
  function PointTile(c: Coordinate, zoom: nat, project: LatProjection): Tile {
    Tile(Lon2Tile(c.lon, zoom), Lat2Tile(c.lat, zoom, project), zoom)
  }

  /** Tiles are compared on `(x, y)` only. */
  function TileKey(t: Tile): (int, int) {
    (t.x, t.y)
  }

  function PointTiles(route: seq<Coordinate>, zoom: nat, project: LatProjection): (ts: seq<Tile>)
    ensures |ts| == |route|
    ensures forall i :: 0 <= i < |route| ==> ts[i] == PointTile(route[i], zoom, project)
  {
    seq(|route|, i requires 0 <= i < |route| => PointTile(route[i], zoom, project))
  }

  /** `route2tiles`: the tile of every track point, each distinct tile once. */
  function Route2Tiles(route: seq<Coordinate>, zoom: nat, project: LatProjection): (tiles: seq<Tile>)
    ensures |tiles| <= |route|
    ensures forall i, j :: 0 <= i < j < |tiles| ==> TileKey(tiles[i]) != TileKey(tiles[j])
    ensures forall i :: 0 <= i < |route| ==> PointTile(route[i], zoom, project) in tiles
    ensures forall j :: 0 <= j < |tiles| ==>
      exists i :: 0 <= i < |route| && tiles[j] == PointTile(route[i], zoom, project)
  {
    var ts := PointTiles(route, zoom, project);
    Route2TilesCovers(route, zoom, project);
    Dedup.Dedup(ts, TileKey)
  }

  lemma Route2TilesCovers(route: seq<Coordinate>, zoom: nat, project: LatProjection)
    ensures var ts := PointTiles(route, zoom, project);
            forall i :: 0 <= i < |route| ==> ts[i] in Dedup.Dedup(ts, TileKey)
  {
    var ts := PointTiles(route, zoom, project);
    var tiles := Dedup.Dedup(ts, TileKey);
    Dedup.DedupCovers(ts, TileKey);
    forall i | 0 <= i < |route| ensures ts[i] in tiles {
      var j :| 0 <= j < |tiles| && TileKey(tiles[j]) == TileKey(ts[i]);
      assert tiles[j] in ts;
    }
  }

  /** The tiles come out in the order the track first reaches them. */
  lemma Route2TilesOrder(route: seq<Coordinate>, zoom: nat, project: LatProjection)
    ensures Route2Tiles(route, zoom, project) == Dedup.Firsts(PointTiles(route, zoom, project), TileKey)
  {
    Dedup.DedupIsFirsts(PointTiles(route, zoom, project), TileKey);
  }

  /** The page a tile falls into: origin floored to a multiple of the page size. */
  function PageOf(t: Tile, size: Size): Page {
    Page(BucketInt(t.x, size.sx), BucketInt(t.y, size.sy), size.sx, size.sy, t.zoom)
  }

  /** Pages are compared on their origin only. */
  function PageKey(p: Page): (int, int) {
    (p.x, p.y)
  }

  function TilePages(tiles: seq<Tile>, size: Size): (ps: seq<Page>)
    ensures |ps| == |tiles|
    ensures forall i :: 0 <= i < |tiles| ==> ps[i] == PageOf(tiles[i], size)
  {
    seq(|tiles|, i requires 0 <= i < |tiles| => PageOf(tiles[i], size))
  }

  /** `tiles2pages`: the page of every tile, each distinct origin once. */
  function Tiles2Pages(tiles: seq<Tile>, size: Size): (pages: seq<Page>)
    ensures |pages| <= |tiles|
    ensures forall i, j :: 0 <= i < j < |pages| ==> PageKey(pages[i]) != PageKey(pages[j])
    ensures forall j :: 0 <= j < |pages| ==> pages[j] in TilePages(tiles, size)
    ensures forall i :: 0 <= i < |tiles| ==>
      exists j :: 0 <= j < |pages| && PageKey(pages[j]) == PageKey(PageOf(tiles[i], size))
  {
    Dedup.DedupCovers(TilePages(tiles, size), PageKey);
    Dedup.Dedup(TilePages(tiles, size), PageKey)
  }

  /** A tile lies on its own page. */
  lemma PageOfContains(t: Tile, size: Size)
    requires size.sx > 0 && size.sy > 0
    ensures PageOf(t, size).Contains(t.x, t.y)
  {
    BucketIntAgrees(t.x, size.sx);
    BucketIntAgrees(t.y, size.sy);
    BucketBounds(t.x as real, size.sx);
    BucketBounds(t.y as real, size.sy);
  }

  /** With a positive page size, every tile lies on one of the pages. */
  lemma Tiles2PagesCover(tiles: seq<Tile>, size: Size)
    requires size.sx > 0 && size.sy > 0
    ensures var pages := Tiles2Pages(tiles, size);
      forall i :: 0 <= i < |tiles| ==>
        exists j :: 0 <= j < |pages| && pages[j].Contains(tiles[i].x, tiles[i].y)
  {
    var pages := Tiles2Pages(tiles, size);
    forall i | 0 <= i < |tiles|
      ensures exists j :: 0 <= j < |pages| && pages[j].Contains(tiles[i].x, tiles[i].y)
    {
      var j :| 0 <= j < |pages| && PageKey(pages[j]) == PageKey(PageOf(tiles[i], size));
      PageOfContains(tiles[i], size);
      assert pages[j] in TilePages(tiles, size);
      assert pages[j].Contains(tiles[i].x, tiles[i].y);
    }
  }

  /** Every page has the requested size and an origin that is a multiple of it. */
  lemma Tiles2PagesAligned(tiles: seq<Tile>, size: Size)
    ensures var pages := Tiles2Pages(tiles, size);
      forall j :: 0 <= j < |pages| ==>
        pages[j].sx == size.sx && pages[j].sy == size.sy &&
        pages[j].x % size.sx == 0 && pages[j].y % size.sy == 0
  {
    var pages := Tiles2Pages(tiles, size);
    forall j | 0 <= j < |pages|
      ensures pages[j].sx == size.sx && pages[j].sy == size.sy
      ensures pages[j].x % size.sx == 0 && pages[j].y % size.sy == 0
    {
      assert pages[j] in TilePages(tiles, size);
      var i :| 0 <= i < |tiles| && TilePages(tiles, size)[i] == pages[j];
      BucketIntAgrees(tiles[i].x, size.sx);
      BucketIntAgrees(tiles[i].y, size.sy);
      BucketAligned(tiles[i].x as real, size.sx);
      BucketAligned(tiles[i].y as real, size.sy);
    }
  }

  /** Each page is the page of the first tile that reached its bucket, so it
      keeps that tile's zoom; pages come out in first-bucket-seen order. */
  lemma Tiles2PagesFirstSeen(tiles: seq<Tile>, size: Size)
    ensures Tiles2Pages(tiles, size) == Dedup.Firsts(TilePages(tiles, size), PageKey)
    ensures forall j :: 0 <= j < |Tiles2Pages(tiles, size)| ==>
      Dedup.IsFirstOccurrence(TilePages(tiles, size), PageKey, Tiles2Pages(tiles, size)[j])
  {
    Dedup.DedupIsFirsts(TilePages(tiles, size), PageKey);
    Dedup.DedupKeepsFirst(TilePages(tiles, size), PageKey);
  }

  /** Tiles that all fall into one bucket yield exactly one page. */
  lemma OneBucketOnePage(tiles: seq<Tile>, size: Size)
    requires |tiles| > 0
    requires forall i :: 0 <= i < |tiles| ==> PageKey(PageOf(tiles[i], size)) == PageKey(PageOf(tiles[0], size))
    ensures |Tiles2Pages(tiles, size)| == 1
  {
    Dedup.SingleKey(TilePages(tiles, size), PageKey);
  }

  /** A nonempty track whose points all land in one page bucket gives one page. */
  lemma OneBucketRouteOnePage(route: seq<Coordinate>, zoom: nat, project: LatProjection, size: Size)
    requires |route| > 0
    requires forall i :: 0 <= i < |route| ==>
      PageKey(PageOf(PointTile(route[i], zoom, project), size))
        == PageKey(PageOf(PointTile(route[0], zoom, project), size))
    ensures |Tiles2Pages(Route2Tiles(route, zoom, project), size)| == 1
  {
    var tiles := Route2Tiles(route, zoom, project);
    assert PointTile(route[0], zoom, project) in tiles;
    forall j | 0 <= j < |tiles|
      ensures PageKey(PageOf(tiles[j], size)) == PageKey(PageOf(tiles[0], size))
    {
      var i :| 0 <= i < |route| && tiles[j] == PointTile(route[i], zoom, project);
      var i0 :| 0 <= i0 < |route| && tiles[0] == PointTile(route[i0], zoom, project);
    }
    OneBucketOnePage(tiles, size);
  }
}

=== FILE: run.dfy ===
/** The dispatch of the command-line entry point (src/run.ts), as a pure
    function from the parsed arguments to the action it takes. */
module Run {
  import opened Types
  import opened Args

  /** A JavaScript number after `Number(...)`: finite, or NaN. */
  datatype JsNumber = Finite(value: real) | NaN

  /** `Number(v)`; how a non-numeric string converts is given by `parse`. */
  function ToNumber(v: Option<ArgValue>, parse: string -> JsNumber): JsNumber {
    match v
    case None => NaN
    case Some(Num(n)) => Finite(n)
    case Some(Flag(b)) => Finite(if b then 1.0 else 0.0)
    case Some(Str(s)) => parse(s)
  }

  /** The output name handed to a mode: given, a fixed default, or the map
      default `map_<n>_<w>_<s>_<e>_<zoom>` (number formatting not modelled). */
  datatype RunOutput =
    | GivenOutput(value: ArgValue)
    | NamedOutput(name: string)
    | MapOutput(north: JsNumber, west: JsNumber, south: JsNumber, east: JsNumber, zoom: JsNumber)

  datatype Action =
    | ShowHelp
      /** The tile usage policy forbids zoom 17 and higher. */
    | RefuseZoom
    | RunPath(zoom: JsNumber, input: ArgValue, sx: JsNumber, sy: JsNumber, output: RunOutput)
    | RunRoute(zoom: JsNumber, input: ArgValue, sx: JsNumber, sy: JsNumber, output: RunOutput)
    | RunMap(zoom: JsNumber, north: JsNumber, west: JsNumber, south: JsNumber, east: JsNumber,
             sx: JsNumber, sy: JsNumber, output: RunOutput)

  /** `Number(argv.zoom || 12)` */
  function Zoom(argv: Argv, parse: string -> JsNumber): (z: JsNumber)
    ensures !IsSet(argv, "zoom") ==> z == Finite(12.0)
  {
    ToNumber(Some(OrDefault(argv, "zoom", Num(12.0))), parse)
  }

  predicate TooDeep(zoom: JsNumber) {
    zoom.Finite? && zoom.value >= 17.0
  }

  /** All four short boundary flags are truthy. */
  predicate HasBoundaries(argv: Argv) {
    IsSet(argv, "n") && IsSet(argv, "s") && IsSet(argv, "w") && IsSet(argv, "e")
  }

  /** `argv[short] || argv[long]` */
  function Either(argv: Argv, short: string, long: string): Option<ArgValue> {
    if IsSet(argv, short) then Some(argv[short]) else Get(argv, long)
  }

  /** `output || name` */
  function OutputOr(argv: Argv, name: RunOutput): RunOutput {
    if IsSet(argv, "output") then GivenOutput(argv["output"]) else name
  }

  /** The entry closure of src/run.ts. */
  function Dispatch(argv: Argv, parse: string -> JsNumber): (a: Action)
    ensures WantsHelp(argv) ==> a == ShowHelp
    ensures a.RefuseZoom? <==> !WantsHelp(argv) && TooDeep(Zoom(argv, parse))
    ensures a.RunPath? <==>
      !WantsHelp(argv) && !TooDeep(Zoom(argv, parse)) && IsSet(argv, "path") && IsSet(argv, "input")
    ensures a.RunRoute? <==>
      && !WantsHelp(argv) && !TooDeep(Zoom(argv, parse)) && !IsSet(argv, "path")
      && IsSet(argv, "route") && IsSet(argv, "input")
    ensures a.RunMap? <==>
      && !WantsHelp(argv) && !TooDeep(Zoom(argv, parse)) && !IsSet(argv, "path")
      && !IsSet(argv, "route") && HasBoundaries(argv)
    ensures a.RunPath? || a.RunRoute? || a.RunMap? ==>
      && a.zoom == Zoom(argv, parse)
      && a.sx == ToNumber(Some(OrDefault(argv, "sx", Num(4.0))), parse)
      && a.sy == ToNumber(Some(OrDefault(argv, "sy", Num(5.0))), parse)
    ensures a.RunPath? ==> a.input == argv["input"] && a.output == OutputOr(argv, NamedOutput("path"))
    ensures a.RunRoute? ==> a.input == argv["input"] && a.output == OutputOr(argv, NamedOutput("route"))
    ensures a.RunMap? ==>
      && a.north == ToNumber(Some(argv["n"]), parse) && a.west == ToNumber(Some(argv["w"]), parse)
      && a.south == ToNumber(Some(argv["s"]), parse) && a.east == ToNumber(Some(argv["e"]), parse)
      && a.output == OutputOr(argv, MapOutput(a.north, a.west, a.south, a.east, a.zoom))
  {
    if WantsHelp(argv) then ShowHelp
    else
      var zoom := Zoom(argv, parse);
      if TooDeep(zoom) then RefuseZoom
      else
        var sx := ToNumber(Some(OrDefault(argv, "sx", Num(4.0))), parse);
        var sy := ToNumber(Some(OrDefault(argv, "sy", Num(5.0))), parse);
        if IsSet(argv, "path") then
          if !IsSet(argv, "input") then ShowHelp
          else RunPath(zoom, argv["input"], sx, sy, OutputOr(argv, NamedOutput("path")))
        else if IsSet(argv, "route") then
          if !IsSet(argv, "input") then ShowHelp
          else RunRoute(zoom, argv["input"], sx, sy, OutputOr(argv, NamedOutput("route")))
        else if !HasBoundaries(argv) then ShowHelp
        else
          var north := ToNumber(Either(argv, "n", "north"), parse);
          var west := ToNumber(Either(argv, "w", "west"), parse);
          var south := ToNumber(Either(argv, "s", "south"), parse);
          var east := ToNumber(Either(argv, "e", "east"), parse);
          RunMap(zoom, north, west, south, east, sx, sy,
                 OutputOr(argv, MapOutput(north, west, south, east, zoom)))
  }

  /** A zoom of 0 is falsy, so it becomes the default 12. */
  lemma ZeroZoomBecomesDefault(argv: Argv, parse: string -> JsNumber)
    requires "zoom" in argv && argv["zoom"] == Num(0.0)
    ensures Zoom(argv, parse) == Finite(12.0)
  {
  }

  /** Only the short boundary flags are consulted: the long forms alone, or a
      boundary of 0, leave map mode showing help. */
  lemma LongBoundariesAloneShowHelp(argv: Argv, parse: string -> JsNumber)
    requires !WantsHelp(argv) && !TooDeep(Zoom(argv, parse))
    requires !IsSet(argv, "path") && !IsSet(argv, "route")
    requires !IsSet(argv, "n") || !IsSet(argv, "s") || !IsSet(argv, "w") || !IsSet(argv, "e")
    ensures Dispatch(argv, parse) == ShowHelp
  {
  }
}

=== FILE: types.dfy ===
/** Records shared by the tile and page arithmetic (src/types.ts). */
module Types {

  /** The conventional optional value; `None` stands for JavaScript's `undefined`. */
  datatype Option<+T> = None | Some(value: T)

  /** A floored tile index at a zoom level. */
  datatype Tile = Tile(x: int, y: int, zoom: nat)

  /** A fractional (exact) tile coordinate, as produced by the un-floored projections. */
  datatype ExactTile = ExactTile(x: real, y: real, zoom: nat)

  /** Page size in tiles. */
  datatype PageSize = PageSize(sx: int, sy: int)

  /** A page size the bucketing can divide by. */
  type Size = s: PageSize | s.sx != 0 && s.sy != 0 witness PageSize(4, 5)

  /** One output page: the top-left tile index, its size in tiles and its zoom. */
  datatype Page = Page(x: int, y: int, sx: int, sy: int, zoom: nat)
  {
    /** The tile at column `tx`, row `ty` lies on this page. */
    predicate Contains(tx: int, ty: int) {
      x <= tx < x + sx && y <= ty < y + sy
    }
  }

  /** A geographic bounding box in degrees. */
  datatype Box = Box(north: real, west: real, south: real, east: real)

  /** A GPS track point in degrees. */
  datatype Coordinate = Coordinate(lat: real, lon: real)

  /** The Web-Mercator latitude projection `lat2tileExact(lat, zoom)`. It is
      transcendental (log, tan, cos on IEEE doubles), so the model takes it as a
      parameter and assumes nothing about it. */
  type LatProjection = (real, nat) -> real
}

=== FILE: utils.dfy ===
/** Zero padding of page numbers (`pad` in src/utils.ts). The padded numbers
    name the page image files, whose sorted order is the page order. */
module Utils {
  import opened Arith

  function Pow10(n: nat): (p: nat)
    ensures p >= 1
  {
    if n == 0 then 1 else 10 * Pow10(n - 1)
  }

  function DigitChar(d: nat): char
    requires d < 10
  {
    ['0', '1', '2', '3', '4', '5', '6', '7', '8', '9'][d]
  }

  /** Decimal digits of a non-negative integer, without leading zeros. */
  function Digits(n: nat): (s: string)
    ensures |s| >= 1
  {
    if n < 10 then [DigitChar(n)] else Digits(n / 10) + [DigitChar(n % 10)]
  }

  /** JavaScript's rendering of an integer in a string concatenation. */
  function Decimal(n: int): string {
    if n < 0 then "-" + Digits(-n) else Digits(n)
  }

  function Repeat(c: char, n: nat): (s: string)
    ensures |s| == n
    ensures forall i :: 0 <= i < n ==> s[i] == c
  {
    if n == 0 then [] else Repeat(c, n - 1) + [c]
  }

  /** `s.slice(-k)`: the last `k` characters, the whole string when `k` is 0
      (as `-0` is `0`) or when `k` exceeds the length. */
  function SliceFromEnd(s: string, k: nat): (r: string)
    ensures |r| == if k == 0 then |s| else Min(k, |s|)
    ensures s == s[..|s| - |r|] + r
  {
    if k == 0 || k >= |s| then s else s[|s| - k..]
  }

  /** `pad(num, decimals = 5)`: `decimals` zeros, then `num`, keeping the last
      `decimals` characters. */
  function Pad(num: int, decimals: nat := 5): (r: string)
    ensures decimals >= 1 ==> |r| == decimals
    ensures decimals == 0 ==> r == Decimal(num)
  {
    SliceFromEnd(Repeat('0', decimals) + Decimal(num), decimals)
  }

  /** Reference definition: the last `d` base-10 digits of `n`, most
      significant first, zeros included. */
  function FixedWidth(n: nat, d: nat): (s: string)
    ensures |s| == d
  {
    if d == 0 then [] else FixedWidth(n / 10, d - 1) + [DigitChar(n % 10)]
  }

  /** For a non-negative number and a positive width, `pad` yields exactly the
      last `decimals` digits of the number: zero-filled when it is shorter and
      silently truncated when it is longer. */
  lemma {:induction false} PadIsFixedWidth(num: nat, decimals: nat)
    requires decimals >= 1
    ensures Pad(num, decimals) == FixedWidth(num, decimals)
  {
    var s := Repeat('0', decimals) + Digits(num);
    LastDigits(Repeat('0', decimals), num, decimals);
  }

  /** The last `d` characters of zeros followed by the digits of `n`. */
  lemma {:induction false} LastDigits(zeros: string, n: nat, d: nat)
    requires forall i :: 0 <= i < |zeros| ==> zeros[i] == '0'
    requires d <= |zeros| + 1
    ensures d <= |zeros + Digits(n)|
    ensures (zeros + Digits(n))[|zeros + Digits(n)| - d..] == FixedWidth(n, d)
    decreases n
  {
    var s := zeros + Digits(n);
    if d > 0 {
      var c := [DigitChar(n % 10)];
      if n < 10 {
        assert s == zeros + c;
        assert s[|s| - d..] == zeros[|zeros| - (d - 1)..] + c;
        ZeroTail(zeros, d - 1);
        FixedWidthOfZero(d - 1);
      } else {
        LastDigits(zeros, n / 10, d - 1);
        var p := zeros + Digits(n / 10);
        assert s == p + c;
        assert s[|s| - d..] == p[|p| - (d - 1)..] + c;
      }
    }
  }

  lemma ZeroTail(zeros: string, k: nat)
    requires forall i :: 0 <= i < |zeros| ==> zeros[i] == '0'
    requires k <= |zeros|
    ensures zeros[|zeros| - k..] == Repeat('0', k)
  {
  }

  lemma {:induction false} FixedWidthOfZero(k: nat)
    ensures FixedWidth(0, k) == Repeat('0', k)
  {
    if k > 0 {
      FixedWidthOfZero(k - 1);
    }
  }

  /** A number below `10^decimals` is written with at most `decimals` digits,
      so `pad` left-fills it with zeros. */
  lemma {:induction false} PadSmall(num: nat, decimals: nat)
    requires decimals >= 1 && num < Pow10(decimals)
    ensures |Digits(num)| <= decimals
    ensures Pad(num, decimals) == Repeat('0', decimals - |Digits(num)|) + Digits(num)
  {
    DigitsLength(num, decimals);
    var s := Repeat('0', decimals) + Digits(num);
    var r := Repeat('0', decimals - |Digits(num)|) + Digits(num);
    assert s[|s| - decimals..] == r;
  }

  lemma {:induction false} DigitsLength(n: nat, d: nat)
    requires d >= 1 && n < Pow10(d)
    ensures |Digits(n)| <= d
  {
    if n >= 10 {
      assert d >= 2;
      DigitsLength(n / 10, d - 1);
    }
  }

  /** A number with more than `decimals` digits is cut to its last ones. */
  lemma PadTruncates(num: nat, decimals: nat)
    requires 1 <= decimals < |Digits(num)|
    ensures Pad(num, decimals) == Digits(num)[|Digits(num)| - decimals..]
  {
    var s := Repeat('0', decimals) + Digits(num);
    assert s[|s| - decimals..] == Digits(num)[|Digits(num)| - decimals..];
  }

  /** Strict lexicographic order of strings by character code, as JavaScript
      compares them for characters below U+10000 (digits included). */
  predicate LexLess(a: string, b: string) {
    if |a| == 0 then |b| > 0
    else if |b| == 0 then false
    else if a[0] != b[0] then a[0] < b[0]
    else LexLess(a[1..], b[1..])
  }

  lemma {:induction false} LexLessIrreflexive(a: string)
    ensures !LexLess(a, a)
  {
    if |a| > 0 {
      LexLessIrreflexive(a[1..]);
    }
  }

  lemma {:induction false} LexLessAsymmetric(a: string, b: string)
    requires LexLess(a, b)
    ensures !LexLess(b, a)
  {
    if |a| > 0 && |b| > 0 && a[0] == b[0] {
      LexLessAsymmetric(a[1..], b[1..]);
    }
  }

  /** Appending one character to equally long strings keeps their order. */
  lemma {:induction false} LexLessSnoc(a: string, b: string, x: char, y: char)
    requires |a| == |b|
    requires LexLess(a, b) || (a == b && x < y)
    ensures LexLess(a + [x], b + [y])
  {
    if |a| == 0 {
      assert (a + [x])[0] == x && (b + [y])[0] == y;
    } else {
      assert (a + [x])[1..] == a[1..] + [x];
      assert (b + [y])[1..] == b[1..] + [y];
      if a[0] == b[0] {
        LexLessSnoc(a[1..], b[1..], x, y);
      }
    }
  }

  /** Fixed-width digit strings sort like the numbers they spell. */
  lemma {:induction false} FixedWidthOrdered(a: nat, b: nat, d: nat)
    requires a < b < Pow10(d)
    ensures LexLess(FixedWidth(a, d), FixedWidth(b, d))
  {
    assert d >= 1;
    assert b / 10 < Pow10(d - 1);
    if a / 10 < b / 10 {
      FixedWidthOrdered(a / 10, b / 10, d - 1);
    } else {
      assert a % 10 < b % 10;
    }
    LexLessSnoc(FixedWidth(a / 10, d - 1), FixedWidth(b / 10, d - 1), DigitChar(a % 10), DigitChar(b % 10));
  }

  /** Below `10^decimals`, comparing padded names as strings is the same as
      comparing the numbers, so the padding is also injective there. */
  lemma PadOrderMatchesNumbers(a: nat, b: nat, decimals: nat)
    requires decimals >= 1 && a < Pow10(decimals) && b < Pow10(decimals)
    ensures LexLess(Pad(a, decimals), Pad(b, decimals)) <==> a < b
    ensures Pad(a, decimals) == Pad(b, decimals) <==> a == b
  {
    PadIsFixedWidth(a, decimals);
    PadIsFixedWidth(b, decimals);
    LexLessIrreflexive(Pad(a, decimals));
    if a < b {
      FixedWidthOrdered(a, b, decimals);
    } else if b < a {
      FixedWidthOrdered(b, a, decimals);
      LexLessAsymmetric(Pad(b, decimals), Pad(a, decimals));
    }
  }
}
